=== FILE: README.md ===
# ParkSpot — a Dafny model of the parking-spot server and the mobile client's timer and sync logic

ParkSpot remembers where a signed-in user parked and runs a parking timer. The
Express server keeps one parking spot and one timer row per user in SQLite.
It authenticates requests with a bearer JWT. The React Native client:

- counts the timer down and expires it;
- restores it from the server on sign-in;
- retries transient request failures with exponential backoff;
- stages a parking-spot save that could not reach the server in a single
  local slot, and replays it later.

This project models that core as pure functions over immutable values and
proves properties about them.

| module | file | models |
|---|---|---|
| `Common` | common.dfy | `Option`, JavaScript values and truthiness, substring search, `String.prototype.split` with its join round trip |
| `OwnerTable` | owner_table.dfy | a SQLite table keyed by `user_id`, written by "delete the user's rows, then insert one"; `View` is the abstract map from user to data |
| `Schema` | schema.dfy | the rows, request bodies and JSON responses |
| `Auth` | auth.dfy | `authenticateToken`, register, login and `/users/me`; bcrypt and JWT are function parameters |
| `SpotStore` | spot_store.dfy | the parking-spot read, save and delete, shared by both servers |
| `Server` | server.dfy | the routes of `server/index.js`, timer routes included |
| `LegacyServer` | legacy_server.dfy | the routes of the top-level `index.js` |
| `Clock` | clock.dfy | `formatRemainingTime` and a parser for its output |
| `TimerController` | timer_controller.dfy | the client timer's state: start, tick, expire, cancel, dismiss, logout, restore from the server, notifications |
| `Transport` | transport.dfy | the axios response interceptor, the staging slot `offlineParkingSpot`, the automatic and manual replays, the server health check |
| `Scenarios` | scenarios.dfy | properties across modules: a timer's lifetime, cancel then reload, logout then resume, the staged save replayed |

Abstractions:

- The clock is a parameter `now` in milliseconds. The database's
  `CURRENT_TIMESTAMP`, which fills a new user's `created_at`, is a
  parameter of registration.
- The platform's notification identifier is a parameter. It is None when
  scheduling failed.
- Network reachability, the health replies and the replay's outcome are
  parameters.
- Side effects the client asks for (save or delete the server timer row,
  cancel a notification) are returned as a list of `Effect`s.
- In `TimerController`, `PhaseOf` is the panel `renderTimer` shows: the
  countdown when the timer is active, otherwise the expired notice when that
  flag is set, otherwise the form. `Inv` is the consistency every transition
  preserves.
- A running interval is a `Ticker`. It records the `user` and the
  `notificationId` of the render whose closure created it, which the
  callback's `clearTimerData` reads. At `startTimer` that is the
  notification from before the start, which `scheduleNotification` has
  already cancelled (mobile/App.js:751-754). When there was none, the
  expiry cancels nothing and the new one stays recorded.
  - The interval `startTimer` creates (mobile/App.js:875-901) compares that
    same captured user with its owner, so it never stops on a user switch.
  - The interval `loadTimerData` creates (mobile/App.js:541-568) reads the
    signed-in user through a ref and stops once nobody is signed in.
  - At expiry, either interval deletes the server row only when its render
    had a user. The login handler calls `loadTimerData` from the render
    before sign-in (mobile/App.js:1457-1464), so there it has none.
  `Tick` models both, and `LoadTimerData` takes the calling render's user
  and notification identifier.

## Model

| member | source | states |
|---|---|---|
| Common.Split | server/index.js:168 | the pieces of a split contain no separator and there is always at least one; `JoinSplit` and `SplitJoin` prove that split and join are inverse |
| Common.JoinSplit | server/index.js:168 | joining the pieces of a split with the separator gives back the original string |
| Auth.BearerTokenOfHeader | server/index.js:167-172 | a header `<scheme> <token>[ <rest>]` with a space-free scheme (possibly empty) and a non-empty, space-free token yields exactly that token |
| Auth.BearerTokenShape | server/index.js:167-172 | conversely, any header that yields a token has that token as its second space-separated field |
| Auth.Authenticate | server/index.js:166-182 | no token gives unauthenticated; a token the verifier rejects gives forbidden; otherwise the verified user id |
| Auth.AuthFailure | server/index.js:169-177 | an unauthenticated request gets 401 "Authentication required" and a forbidden one gets 403 "Invalid or expired token" |
| Auth.AuthFailureOfHeader | server/index.js:166-177 | a stopped request is answered 401 exactly when its header carries no token, and 403 exactly when its token does not verify |
| Auth.Register | server/index.js:187-219 | missing username or password is 400 and a failed hash is 500; a username or email already taken is 409 and adds nobody; otherwise 201 with a session for the newly added user; usernames and emails stay unique |
| Auth.Login | server/index.js:222-258 | 400 without credentials, 401 for an unknown user or a wrong password, 500 exactly when bcrypt's compare reports an error, otherwise 200 with a token for that user and no password in the body |
| Auth.Me | server/index.js:261-274 | 401 or 403 without a valid token, 404 when the id names nobody, otherwise that user's id, username, email and `created_at` |
| Auth.RegisterThenLogin | server/index.js:187-258 | with a hash the comparison accepts, a user who registered successfully can log in with the same password and gets their own id |
| Auth.RegisterThenMe | server/index.js:187-274 | a token naming a user who has just registered reads back exactly that user's public profile, with the time of the insert as `created_at` |
| OwnerTable.Find | server/index.js:278-282 | the lookup returns a row of that user, and nothing exactly when the user has no row |
| OwnerTable.Replace | server/index.js:306-323 | after delete-then-insert the user has exactly the new row, every other user's rows are unchanged, and one row per user is preserved |
| OwnerTable.Remove | server/index.js:353-362 | after the delete the user has no row, every other user's rows are unchanged, and one row per user is preserved |
| OwnerTable.ViewReplace | server/index.js:306-323 | the user-to-data map after delete-then-insert is the old map updated at that user |
| OwnerTable.ViewRemove | server/index.js:353-362 | the user-to-data map after the delete is the old map without that user |
| OwnerTable.ViewMatchesFind | server/index.js:278-282 | the row the lookup returns is the one the user-to-data map records |
| SpotStore.Lookup | server/index.js:277-292 | 200 with the user's spot from the map, or null when there is none |
| SpotStore.Save | server/index.js:295-348 | falsy latitude or longitude is 400 and changes nothing; otherwise 200 with the stored row, which becomes the user's only row with the request's timestamp or the server's time, other users untouched |
| SpotStore.Clear | server/index.js:351-362 | 200, the user's spot is gone and other users keep theirs |
| Server.RegisterUser | server/index.js:187-219 | registration changes only the users table |
| Server.GetParkingSpot | server/index.js:277-292 | authentication failures are 401/403; otherwise the user's spot from the map |
| Server.PostParkingSpot | server/index.js:295-348 | authentication failures change nothing; an accepted save updates the map at that user only and keeps the database valid |
| Server.DeleteParkingSpot | server/index.js:351-362 | authentication failures change nothing; a delete removes only that user's spot |
| Server.StoredTimer | server/index.js:403-404 | the stored `timer_active` is 1 exactly when the request's flag is truthy, and the other fields are taken from the request |
| Server.GetTimerData | server/index.js:365-380 | 200 with the user's timer row from the map, or null |
| Server.PostTimerData | server/index.js:383-428 | a falsy `timer_end` is 400 and changes nothing; otherwise the row replaces the user's timer and nothing else changes |
| Server.DeleteTimerData | server/index.js:431-441 | the user's timer row is gone, other users' rows and the other tables are unchanged |
| Server.DeleteThenGetTimer | server/index.js:365-441 | after a delete the same user reads null, and every other user reads what they read before |
| Server.PostThenGetTimer | server/index.js:365-428 | after a save the same user reads back the saved row |
| LegacyServer.RegisterUser | index.js:165-197 | registration changes only the users table |
| LegacyServer.GetParkingSpot | index.js:255-270 | authentication failures are 401/403; otherwise the user's spot from the map |
| LegacyServer.PostParkingSpot | index.js:273-324 | authentication failures change nothing; an accepted save updates the map at that user only |
| LegacyServer.DeleteParkingSpot | index.js:327-338 | a delete removes only the caller's spot |
| LegacyServer.SaveReadDelete | index.js:255-338 | a saved spot reads back as saved, and after a delete it reads back as null |
| Clock.JsRem | mobile/App.js:943-944 | JavaScript's `%` with a positive divisor: it differs from the dividend by a multiple of the divisor, has the dividend's sign and a magnitude below the divisor, which pins the truncated remainder |
| Clock.PadTwo | mobile/App.js:946 | `padStart(2, '0')`: at least two characters, and a short string gets zeros on the left only |
| Clock.FormatDecomposes | mobile/App.js:938-947 | the display of a non-negative time reads back as hours, minutes and seconds with minutes and seconds below 60 and exactly two digits wide, whose total is the whole seconds of the input |
| Clock.DisplayParses | mobile/App.js:946 | three padded fields joined by colons parse back to the same three numbers |
| Clock.NegativeShowsSign | mobile/App.js:938-947 | a negative time would be displayed with a minus sign |
| Clock.Examples | mobile/App.js:938-947 | 3661000 ms shows `01:01:01`; 0 and a missing value show `00:00:00` |
| TimerController.InitialIsIdle | mobile/App.js:154-159 | the initial state is consistent and shows the form |
| TimerController.ClearTimerData | mobile/App.js:614-706 | with a user in the calling render the timer is deactivated and its interval stopped; the notification that render knew of is cancelled and forgotten, and without one the recorded notification is kept and nothing is cancelled; the server row is deleted exactly when asked, and the expired flag is kept |
| TimerController.StartTimer | mobile/App.js:816-926 | a start while the start guard is set is ignored; zero duration or no user only clears the expired flag; otherwise the timer ends duration after now, counts down from the full duration with an interval owned by the user that never stops on its own, and asks for its row to be saved unless the save guard is set; a failed scheduling leaves the form showing |
| TimerController.ReleaseStartGuard | mobile/App.js:916-919 | the start guard is released and nothing else changes |
| TimerController.ReleaseSaveGuard | mobile/App.js:475-478 | the save guard is released and nothing else changes |
| TimerController.Tick | mobile/App.js:875-901 | a stopped interval only clears itself; at or past the end the timer expires, and its row is deleted only when the interval's render had a user (otherwise the remaining time is left at zero and nothing is deleted); the notification cancelled is the one that render knew of, and without one the current notification stays recorded; before the end the remaining time is the distance to the end and the phase is unchanged |
| TimerController.CancelTimer | mobile/App.js:929-935 | with a user signed in the form shows again, the interval stops and the server row is deleted |
| TimerController.Dismiss | mobile/App.js:1779 | dismissing the expired notice shows the form, and an active countdown is unaffected |
| TimerController.Logout | mobile/App.js:1597-1664 | the timer is reset in memory; the recorded notification is cancelled, and nothing else is requested when there is none; the server row is not deleted |
| TimerController.LoadTimerData | mobile/App.js:483-611 | an active row that ends in the future resumes the countdown with a resumed interval and returns true; an active row already past its end expires the timer and deletes the row when the caller's render had a user, cancelling the notification that render knew of (and, without one, keeping the recorded notification), and otherwise only sets the expired flag; a resumed interval remembers the caller's user and notification; no row, an inactive row, an active row whose end is not a valid date (`toISOString` throws into the catch) or a failed fetch shows the form with no expired notice and deletes nothing |
| TimerController.OnNotification | mobile/App.js:221-251 | a notification not for the signed-in user is only cancelled; for that user it expires the timer once the end time the listener saw has passed, deletes the row and cancels the notification that listener saw, and is cancelled either way |
| Transport.MaxRetries | mobile/App.js:91-92 | an unset limit falls back to 3; the limit is always positive |
| Transport.BaseDelay | mobile/App.js:105-107 | an unset delay falls back to 2000 ms; the delay is always positive |
| Transport.Intercept | mobile/App.js:65-132 | a 401 signs out; a request is retried exactly when it has a config and a URL, does not skip retries, is under its limit and failed transiently; the retry waits base times 2 to the power of the retries so far; a parking-spot POST that is not retried is staged with its own payload |
| Transport.RetriesBounded | mobile/App.js:91-110 | however often a request fails, it is retried at most up to its limit, and retry n waits base times 2^(n-1) |
| Transport.TransientRetriedToLimit | mobile/App.js:91-110 | a request that keeps failing transiently is retried exactly up to its limit |
| Transport.RetryTotalWait | mobile/App.js:91-110 | however often a fresh request fails, its waits add up to base times (2^k - 1) for its k retries |
| Transport.StageAfterFailure | mobile/App.js:68-131 | a failed request puts its own payload in the slot when it is not a 401, has a URL, does not skip retries, is not retried and is a POST to a parking-spot URL; every other failure leaves the slot as it was |
| Transport.Replay | mobile/App.js:412-431 | the staged payload is posted, and the slot is cleared exactly when the server answers with data |
| Transport.ServerAwakeAsWritten | mobile/App.js:1328-1384 | a probe or wake-up reply of `OK`, which both servers send, counts as asleep |
| Transport.ServerAwake | mobile/App.js:1328-1384 | the corrected check: the probe's reply decides when there is one, otherwise the wake-up reply does, and either spelling of the healthy status counts |
| Transport.AutoSync | mobile/App.js:370-437 | nothing happens without a staged spot, a network or an awake server; otherwise the staged spot is posted and the slot is empty afterwards exactly when the server answered with data |
| Transport.ManualSyncAsWritten | mobile/App.js:1249-1325 | past the slot and network checks the undeclared `PROD_API_URL` throws, so nothing is posted and the slot keeps its content |
| Transport.ManualSync | mobile/App.js:1249-1325 | the corrected manual sync: the server check applies only in production; otherwise the staged spot is posted and the slot is cleared exactly when the server answered with data |
| Transport.ManualSyncFailureNotRestaged | mobile/App.js:1285-1287 | a failed manual replay is neither retried nor staged again |
| Transport.AutoSyncBackoff | mobile/App.js:406-411 | an automatic replay that keeps failing transiently is retried three times, after 2, 4 and 8 seconds |
| Scenarios.TicksBeforeEnd | mobile/App.js:875-901 | ticks before the end leave the timer active with the same interval and show the time left after the last tick |
| Scenarios.StartTickExpire | mobile/App.js:816-901 | a started timer ticked before its end and then once at or after it expires and deletes its row; later ticks do nothing |
| Scenarios.StartExpireCancelsStaleNotification | mobile/App.js:750-901 | the started interval's expiry cancels the notification pending before Start: with none, the newly scheduled one stays recorded and nothing is cancelled; with one, that one is cancelled and the record emptied |
| Scenarios.ForegroundReloadKeepsNotification | mobile/App.js:295-301 | a foreground reload from a render set up at sign-in with no notification expires a timer started later and deletes its row, but cancels nothing and keeps that timer's notification recorded |
| Scenarios.ActiveDisplayWellFormed | mobile/App.js:1723-1727 | the countdown of a consistent active timer always parses as a clock face whose fields add up to the seconds left |
| Scenarios.CancelThenReload | mobile/App.js:929-935 | cancelling deletes the server row, the server then answers null, and reloading from that answer shows the form |
| Scenarios.LogoutThenResume | mobile/App.js:1597-1664 | logout keeps the server row, and signing back in before the end resumes the same countdown, with an interval that captured no user |
| Scenarios.LoginResumeExpiresWithoutDelete | mobile/App.js:1457-1464 | a timer resumed at sign-in that runs out shows as expired but deletes nothing; the next load from a render with the user deletes the row |
| Scenarios.StagedSaveReplayed | mobile/App.js:121-128 | a spot save that still fails after its retries is staged, and the next successful automatic replay posts exactly that payload and empties the slot |
| Scenarios.HealthyServerLooksAsleep | mobile/App.js:1346 | the health reply of either server fails the check as written, so a staged spot is never replayed automatically |
| Scenarios.HealthyServerReplays | mobile/App.js:1370 | with the corrected check, the servers' reply counts as awake and the staged spot is replayed and cleared |
| Scenarios.ManualSyncNeverPosts | mobile/App.js:1267 | as written a manual sync never posts; with the production check evaluated, a development build posts the staged spot |

## Left out

- SQLite itself. Tables are sequences of rows and `lastID` is a counter.
  Database errors and their 500 replies are absent.
- Concurrency between requests. Each route runs as one atomic step, but in
  the source the DELETE and the INSERT run in separate callbacks
  (server/index.js:306-327). Two overlapping saves by one user can
  interleave and leave two rows. Then `ORDER BY … LIMIT 1` decides which
  row a lookup returns, and `OnePerOwner` does not hold.
- The `parking_spots_new` migration (server/index.js:57-118). It copies
  the old rows to user 1, so the data it produces is outside `Valid`.
- Seeding the default admin user at startup.
- bcrypt and JWT. They are function parameters, and token expiry is part
  of the verifier parameter.
- The health routes' timestamp and message fields. Only the `status` value
  is modelled.
- Floating-point numbers. Coordinates are JavaScript values; hours and
  minutes are natural numbers.
- TimerController.StartTimer: does not model fractional or negative hours
  and minutes from `parseFloat`, because its duration arguments are
  natural numbers.
- The React rendering. The values a closure captured are modelled where
  they change an outcome: the intervals' `user` and `notificationId`, the
  calling render's `user` and `notificationId` in `loadTimerData` (the
  foreground listener at mobile/App.js:295-301 calls it from the render
  that last set up its effect), and the `timerEnd` and `notificationId` the
  notification listener saw then; all are given as parameters. The button
  handlers (start, cancel, dismiss, logout) run in the current render and
  see the current state.
- TimerController.StartTimer: the start guard `startTimer.isStarting`
  (mobile/App.js:818-823) is a property of the function object of one
  render; the model keeps it as lasting state. After a re-render (the
  first press's `setTimerExpired(false)` causes one) a second press within
  the guard's lifetime runs a full second start in the source. It
  schedules a second notification and overwrites the first interval's
  handle; the model ignores that press.
- TimerController.ReleaseSaveGuard: the save guard `saveTimerData.isSaving`
  (mobile/App.js:447-452) has the same lifetime as the start guard. The
  model keeps it across renders, so a save it suppresses might run in the
  source.
- The duplicate countdown `useEffect` at mobile/App.js:328-367. Its ticks
  are similar to `Tick` with these differences: it has no user check, it
  clears the end time and sets no remaining time of zero, and it stores its
  handle over `timerInterval.current`.
- Alerts, messages and console output.
- Restoring the hours and minutes form fields, and the date formatting of
  saved spots.
- The platform notification API. Scheduling is its returned identifier.
- The `AsyncStorage` sweep of stale timer keys, and the
  `getAllScheduledNotifications` clean-up at logout.
- The interceptor stages the request's already-serialised body, which is
  encoded a second time. `saveParkingSpot`'s own catch block
  (mobile/App.js:1189) then overwrites the slot with the same spot as an
  object. Payloads are opaque here, so the two writes are one `Stage`.
- Clearing the slot at sign-out and when the user clears the spot.
- The web client under client/src, the configuration files and
  test-render-connection.js are not part of this model.

## Findings

| source | as written | input that shows it | evidently intended | confidence | as-written member | corrected member |
|---|---|---|---|---|---|---|
| mobile/App.js:1346 | the health check accepts only `status === 'ok'`, and server/index.js:446 and index.js:343 reply `status: 'OK'` | a running server answers `{ status: 'OK' }`; the check returns undefined, so the automatic replay stops before posting | treat the servers' healthy reply as awake and replay the staged spot | high, not executed | Transport.ServerAwakeAsWritten | Transport.ServerAwake |
| mobile/App.js:1267 | `manualSync` compares `API_URL === PROD_API_URL`, and `PROD_API_URL` is declared nowhere in the file | any manual sync with a staged spot and a network; the ReferenceError lands in the catch and shows "Sync Failed" | check the server only in production and post the staged spot | high, not executed | Transport.ManualSyncAsWritten | Transport.ManualSync |

=== FILE: auth.dfy ===
/** Authentication as both servers implement it: the bearer-token
    middleware, and registration, login and the current-user lookup over the
    `users` table. Password hashing and token signing are library calls and
    are given as the fields of a `Crypto` value. */
module Auth {
  import opened Common
  import opened OwnerTable
  import opened Schema

  /** The foreign primitives: bcrypt hash and compare (None when the call
      reports an error), JWT sign and verify (None when the token does not
      verify). */
  datatype Crypto = Crypto(
    hash: JsValue -> Option<string>,
    compare: (JsValue, string) -> Option<bool>,
    sign: (UserId, JsValue) -> string,
    verify: string -> Option<UserId>)

  // ---------------------------------------------------------------------
  // The Authorization header

  /** `authHeader && authHeader.split(' ')[1]`, kept only when truthy: the
      second space-separated piece of a present, non-empty header. */
  function BearerToken(header: Option<string>): Option<string> {
    match header
    case None => None
    case Some(h) =>
      if h == "" then None
      else
        var parts := Split(h, ' ');
        if |parts| < 2 || parts[1] == "" then None else Some(parts[1])
  }

  /** A header of the form `<scheme> <token>[ <more>]` yields `token`. */
  lemma BearerTokenOfHeader(scheme: string, token: string, more: string)
    requires ' ' !in scheme && ' ' !in token && token != ""
    requires more == [] || more[0] == ' '
    ensures BearerToken(Some(scheme + [' '] + token + more)) == Some(token)
  {
    var h := scheme + [' '] + token + more;
    assert h == scheme + [' '] + (token + more);
    SplitAfterField(scheme, token + more, ' ');
    if more == [] {
      assert token + more == token;
      SplitWithoutSep(token, ' ');
    } else {
      assert token + more == token + [' '] + more[1..];
      SplitAfterField(token, more[1..], ' ');
    }
  }

  /** Conversely, a token is always the second piece of such a header. */
  lemma BearerTokenShape(h: string, token: string) returns (scheme: string, more: string)
    requires BearerToken(Some(h)) == Some(token)
    ensures h == scheme + [' '] + token + more
    ensures ' ' !in scheme && ' ' !in token && token != ""
    ensures more == [] || more[0] == ' '
  {
    var parts := Split(h, ' ');
    JoinSplit(h, ' ');
    scheme := parts[0];
    assert Join(parts, ' ') == parts[0] + [' '] + Join(parts[1..], ' ');
    if |parts| == 2 {
      more := [];
      assert Join(parts[1..], ' ') == token;
    } else {
      more := [' '] + Join(parts[2..], ' ');
      assert parts[1..][1..] == parts[2..];
      assert Join(parts[1..], ' ') == token + [' '] + Join(parts[2..], ' ');
    }
  }

  datatype AuthResult = Unauthenticated | Forbidden | Authenticated(user: UserId)

  /** `authenticateToken`: no token gives 401, a token that fails verification
      gives 403, otherwise the request proceeds as the token's user. */
  function Authenticate(header: Option<string>, crypto: Crypto): (r: AuthResult)
    ensures r == Unauthenticated <==> BearerToken(header).None?
    ensures r == Forbidden <==>
      BearerToken(header).Some? && crypto.verify(BearerToken(header).value).None?
    ensures r.Authenticated? ==>
      BearerToken(header).Some? && crypto.verify(BearerToken(header).value) == Some(r.user)
  {
    match BearerToken(header)
    case None => Unauthenticated
    case Some(token) =>
      match crypto.verify(token)
      case None => Forbidden
      case Some(u) => Authenticated(u)
  }

  /** The response the middleware sends when it stops a request. */
  function AuthFailure(a: AuthResult): (r: Response)
    requires !a.Authenticated?
    ensures a == Unauthenticated ==> r == Response(401, ErrorText("Authentication required"))
    ensures a == Forbidden ==> r == Response(403, ErrorText("Invalid or expired token"))
  {
    if a == Unauthenticated then Response(401, ErrorText("Authentication required"))
    else Response(403, ErrorText("Invalid or expired token"))
  }

  /** A request the middleware stops is answered 401 exactly when its header
      carries no token, and 403 exactly when the token it carries does not
      verify. */
  lemma AuthFailureOfHeader(header: Option<string>, crypto: Crypto)
    requires !Authenticate(header, crypto).Authenticated?
    ensures var r := AuthFailure(Authenticate(header, crypto));
      && (r.status == 401 <==> BearerToken(header).None?)
      && (r.status == 403 <==>
            BearerToken(header).Some? && crypto.verify(BearerToken(header).value).None?)
  {
  }

  // ---------------------------------------------------------------------
  // The users table

  /** A row of `users`; `createdAt` is the `created_at` column, which the
      database fills with `CURRENT_TIMESTAMP` on insert. */
  datatype User = User(id: UserId, username: JsValue, password: string, email: JsValue,
                       createdAt: string)

  datatype Users = Users(rows: seq<User>, nextId: nat)

  /** A value the SQLite driver binds as NULL; NULLs never clash under a
      UNIQUE constraint. */
  predicate SqlNull(v: JsValue) {
    v == Undefined || v == Null
  }

  /** Inserting (`username`, `email`) would violate a UNIQUE constraint. */
  predicate Clash(rows: seq<User>, username: JsValue, email: JsValue) {
    exists i :: 0 <= i < |rows| && (rows[i].username == username ||
                                    (!SqlNull(email) && rows[i].email == email))
  }

  ghost predicate UniqueKeys(users: Users) {
    && (forall i, j :: 0 <= i < j < |users.rows| ==>
          users.rows[i].username != users.rows[j].username &&
          (SqlNull(users.rows[i].email) || users.rows[i].email != users.rows[j].email) &&
          users.rows[i].id != users.rows[j].id)
    && (forall i :: 0 <= i < |users.rows| ==> users.rows[i].id < users.nextId)
  }

  /** `SELECT * FROM users WHERE username = ?`: the first match. */
  function FindByName(rows: seq<User>, username: JsValue): (r: Option<User>)
    ensures r.None? <==> (forall i :: 0 <= i < |rows| ==> rows[i].username != username)
    ensures r.Some? ==> r.value in rows && r.value.username == username
  {
    if rows == [] then None
    else if rows[0].username == username then Some(rows[0])
    else FindByName(rows[1..], username)
  }

  /** `SELECT ... FROM users WHERE id = ?`: the first match. */
  function FindById(rows: seq<User>, id: UserId): (r: Option<User>)
    ensures r.None? <==> (forall i :: 0 <= i < |rows| ==> rows[i].id != id)
    ensures r.Some? ==> r.value in rows && r.value.id == id
  {
    if rows == [] then None
    else if rows[0].id == id then Some(rows[0])
    else FindById(rows[1..], id)
  }

  function Public(u: User): PublicUser {
    PublicUser(u.id, u.username, u.email)
  }

  /** `POST /api/users/register`; `now` is the database's `CURRENT_TIMESTAMP`. */
  function Register(users: Users, crypto: Crypto, username: JsValue, password: JsValue,
                    email: JsValue, now: string): (r: (Users, Response))
    ensures !Truthy(username) || !Truthy(password) ==> r.1.status == 400
    ensures Truthy(username) && Truthy(password) && crypto.hash(password).None? ==>
      r.1.status == 500
    ensures r.1.status == 409 <==>
      Truthy(username) && Truthy(password) && crypto.hash(password).Some? &&
      Clash(users.rows, username, email)
    ensures r.1.status == 201 <==>
      Truthy(username) && Truthy(password) && crypto.hash(password).Some? &&
      !Clash(users.rows, username, email)
    ensures r.1.status == 201 ==>
      && r.0.rows == users.rows + [User(users.nextId, username, crypto.hash(password).value, email, now)]
      && r.1.body == Session(PublicUser(users.nextId, username, email),
                             crypto.sign(users.nextId, username))
    ensures r.1.status != 201 ==> r.0 == users
    ensures UniqueKeys(users) ==> UniqueKeys(r.0)
  {
    if !Truthy(username) || !Truthy(password) then
      (users, Response(400, ErrorText("Username and password are required")))
    else match crypto.hash(password)
      case None => (users, Response(500, ErrorText("Server error")))
      case Some(h) =>
        if Clash(users.rows, username, email) then
          (users, Response(409, ErrorText("Username or email already exists")))
        else
          var id := users.nextId;
          var users' := Users(users.rows + [User(id, username, h, email, now)], id + 1);
          (users', Response(201, Session(PublicUser(id, username, email), crypto.sign(id, username))))
  }

  /** `POST /api/users/login`. */
  function Login(users: Users, crypto: Crypto, username: JsValue, password: JsValue): (r: Response)
    ensures !Truthy(username) || !Truthy(password) ==> r.status == 400
    ensures r.status == 200 <==>
      Truthy(username) && Truthy(password) && FindByName(users.rows, username).Some? &&
      crypto.compare(password, FindByName(users.rows, username).value.password) == Some(true)
    ensures r.status == 200 ==>
      var u := FindByName(users.rows, username).value;
      r.body == Session(Public(u), crypto.sign(u.id, u.username))
    ensures r.status == 500 <==>
      Truthy(username) && Truthy(password) && FindByName(users.rows, username).Some? &&
      crypto.compare(password, FindByName(users.rows, username).value.password).None?
    ensures Truthy(username) && Truthy(password) && r.status != 200 && r.status != 500 ==>
      r.status == 401
  {
    if !Truthy(username) || !Truthy(password) then
      Response(400, ErrorText("Username and password are required"))
    else match FindByName(users.rows, username)
      case None => Response(401, ErrorText("Invalid username or password"))
      case Some(u) =>
        match crypto.compare(password, u.password)
        case None => Response(500, ErrorText("Server error"))
        case Some(false) => Response(401, ErrorText("Invalid username or password"))
        case Some(true) => Response(200, Session(Public(u), crypto.sign(u.id, u.username)))
  }

  /** `GET /api/users/me`. */
  function Me(users: Users, crypto: Crypto, header: Option<string>): (r: Response)
    ensures Authenticate(header, crypto) == Unauthenticated ==> r.status == 401
    ensures Authenticate(header, crypto) == Forbidden ==> r.status == 403
    ensures r.status == 200 <==>
      Authenticate(header, crypto).Authenticated? &&
      FindById(users.rows, Authenticate(header, crypto).user).Some?
    ensures r.status == 200 ==>
      var u := FindById(users.rows, Authenticate(header, crypto).user).value;
      r.body == Profile(Public(u), u.createdAt)
    ensures Authenticate(header, crypto).Authenticated? && r.status != 200 ==> r.status == 404
  {
    match Authenticate(header, crypto)
    case Authenticated(id) =>
      (match FindById(users.rows, id)
       case None => Response(404, ErrorText("User not found"))
       case Some(u) => Response(200, Profile(Public(u), u.createdAt)))
    case _ => AuthFailure(Authenticate(header, crypto))
  }

  /** Whatever a successful registration hashed, the password it was given
      compares equal to it (what bcrypt promises). */
  ghost predicate HashThenCompare(crypto: Crypto) {
    forall p, h :: crypto.hash(p) == Some(h) ==> crypto.compare(p, h) == Some(true)
  }

  /** A user who has just registered can log in with the same credentials,
      and the session names the new account. */
  lemma RegisterThenLogin(users: Users, crypto: Crypto, username: JsValue, password: JsValue,
                          email: JsValue, now: string)
    requires HashThenCompare(crypto)
    requires Register(users, crypto, username, password, email, now).1.status == 201
    ensures var users' := Register(users, crypto, username, password, email, now).0;
      var r := Login(users', crypto, username, password);
      r.status == 200 && r.body.Session? && r.body.user.id == users.nextId
  {
    var users' := Register(users, crypto, username, password, email, now).0;
    var h := crypto.hash(password).value;
    var added := User(users.nextId, username, h, email, now);
    assert users'.rows == users.rows + [added];
    FindByNameAppend(users.rows, added, username);
  }

  lemma {:induction false} FindByNameAppend(rows: seq<User>, u: User, username: JsValue)
    requires u.username == username
    requires forall i :: 0 <= i < |rows| ==> rows[i].username != username
    ensures FindByName(rows + [u], username) == Some(u)
  {
    if rows == [] {
      assert rows + [u] == [u];
    } else {
      assert (rows + [u])[1..] == rows[1..] + [u];
      FindByNameAppend(rows[1..], u, username);
    }
  }

  /** A token naming a user who has just registered reads back that user's
      public profile and registration time: ids stay below the counter, so the new id is not
      taken by an earlier row. */
  lemma RegisterThenMe(users: Users, crypto: Crypto, username: JsValue, password: JsValue,
                       email: JsValue, now: string, header: Option<string>)
    requires UniqueKeys(users)
    requires Register(users, crypto, username, password, email, now).1.status == 201
    requires Authenticate(header, crypto) == Authenticated(users.nextId)
    ensures var users' := Register(users, crypto, username, password, email, now).0;
      Me(users', crypto, header) == Response(200, Profile(PublicUser(users.nextId, username, email), now))
  {
    var users' := Register(users, crypto, username, password, email, now).0;
    var added := User(users.nextId, username, crypto.hash(password).value, email, now);
    assert users'.rows == users.rows + [added];
    FindByIdAppend(users.rows, added);
  }

  lemma {:induction false} FindByIdAppend(rows: seq<User>, u: User)
    requires forall i :: 0 <= i < |rows| ==> rows[i].id < u.id
    ensures FindById(rows + [u], u.id) == Some(u)
  {
    if rows == [] {
      assert rows + [u] == [u];
    } else {
      assert (rows + [u])[1..] == rows[1..] + [u];
      FindByIdAppend(rows[1..], u);
    }
  }
}

=== FILE: clock.dfy ===
/** `formatRemainingTime` of the mobile client: a countdown in milliseconds
    shown as `HH:MM:SS`, with JavaScript's `Math.floor`, `%` and
    `toString().padStart(2, '0')` written out. */
module Clock {
  import opened Common

  /** JavaScript `a % b` for a positive divisor: the remainder takes the sign
      of the dividend (Dafny's `%` never returns a negative value). */
  function JsRem(a: int, b: int): (r: int)
    requires b > 0
    ensures a >= 0 ==> r == a % b
    ensures a < 0 ==> -b < r <= 0
    ensures (a - r) % b == 0
  {
    if a >= 0 then NonNegativeRemainder(a, b); a % b
    else NegativeRemainder(a, b); -((-a) % b)
  }

  lemma NonNegativeRemainder(a: int, b: int)
    requires b > 0
    ensures (a - a % b) % b == 0
  {
    assert a - a % b == b * (a / b);
    MultipleHasNoRemainder(a / b, b);
  }

  /** The truncated remainder of a negative dividend differs from it by a
      multiple of the divisor. */
  lemma NegativeRemainder(a: int, b: int)
    requires a < 0 && b > 0
    ensures (a + (-a) % b) % b == 0
  {
    var q := (-a) / b;
    assert -a == b * q + (-a) % b;
    assert a + (-a) % b == b * (-q);
    MultipleHasNoRemainder(-q, b);
  }

  lemma MultipleHasNoRemainder(k: int, b: int)
    requires b > 0
    ensures (b * k) % b == 0
  {
    var d, m := (b * k) / b, (b * k) % b;
    assert b * k == b * d + m;
    assert m == b * (k - d);
    if k - d >= 1 {
      assert false;
    } else if k - d <= -1 {
      assert false;
    }
  }

  function DigitChar(d: nat): char
    requires d < 10
  {
    "0123456789"[d]
  }

  predicate IsDigit(c: char) {
    '0' <= c <= '9'
  }

  /** `n.toString()` for a non-negative integer. */
  function Digits(n: nat): (s: string)
    ensures |s| >= 1
    ensures forall i :: 0 <= i < |s| ==> IsDigit(s[i])
  {
    if n < 10 then [DigitChar(n)] else Digits(n / 10) + [DigitChar(n % 10)]
  }

  /** `i.toString()` for any integer. */
  function IntString(i: int): string {
    if i < 0 then "-" + Digits(-i) else Digits(i)
  }

  /** `s.padStart(2, '0')`. */
  function PadTwo(s: string): (r: string)
    ensures |r| >= 2
    ensures |s| >= 2 ==> r == s
    ensures |s| < 2 ==> |r| == 2 && r[2 - |s|..] == s && forall i :: 0 <= i < 2 - |s| ==> r[i] == '0'
  {
    if |s| >= 2 then s else seq(2 - |s|, _ => '0') + s
  }

  /** The value of a string of decimal digits. */
  function Value(s: string): nat
    requires forall i :: 0 <= i < |s| ==> IsDigit(s[i])
  {
    if s == [] then 0
    else
      var last := s[|s| - 1];
      assert IsDigit(last);
      10 * Value(s[..|s| - 1]) + (last as int - '0' as int)
  }

  /** The countdown display. `ms` is None for `null`, `undefined` or `NaN`;
      those and 0 show `00:00:00`. `Math.floor` of a quotient by a positive
      divisor is Dafny's `/`. */
  function FormatRemainingTime(ms: Option<int>): string {
    if ms.None? || ms.value == 0 then "00:00:00"
    else
      var totalSeconds := ms.value / 1000;
      var hours := totalSeconds / 3600;
      var minutes := JsRem(totalSeconds, 3600) / 60;
      var seconds := JsRem(totalSeconds, 60);
      PadTwo(IntString(hours)) + ":" + PadTwo(IntString(minutes)) + ":" + PadTwo(IntString(seconds))
  }

  datatype Hms = Hms(hours: nat, minutes: nat, seconds: nat)

  /** Reads a display back: three colon-separated runs of digits. */
  function ParseClock(s: string): Option<Hms> {
    var parts := Split(s, ':');
    if |parts| != 3 then None
    else if !AllDigits(parts[0]) || !AllDigits(parts[1]) || !AllDigits(parts[2]) then None
    else Some(Hms(Value(parts[0]), Value(parts[1]), Value(parts[2])))
  }

  predicate AllDigits(s: string) {
    forall i :: 0 <= i < |s| ==> IsDigit(s[i])
  }

  /** The display of a non-negative countdown reads back as hours, minutes
      and seconds that add up to the whole seconds of `ms`, with minutes and
      seconds below 60; every field is at least two characters wide and the
      minutes and seconds exactly two. */
  lemma FormatDecomposes(ms: nat)
    ensures var r := FormatRemainingTime(Some(ms));
      var parts := Split(r, ':');
      && |parts| == 3
      && |parts[0]| >= 2 && |parts[1]| == 2 && |parts[2]| == 2
      && ParseClock(r).Some?
      && var t := ParseClock(r).value;
         t.hours * 3600 + t.minutes * 60 + t.seconds == ms / 1000
         && t.minutes < 60 && t.seconds < 60
  {
    var total := ms / 1000;
    var h, m, s := total / 3600, JsRem(total, 3600) / 60, JsRem(total, 60);
    SplitSeconds(total);
    if ms == 0 {
      assert h == 0 && m == 0 && s == 0;
      ZeroDisplay();
    } else {
      assert FormatRemainingTime(Some(ms)) == Display(h, m, s);
    }
    DisplayParses(h, m, s);
  }

  /** Three fields, each padded to two digits, separated by colons. */
  function Display(h: nat, m: nat, s: nat): string {
    PadTwo(Digits(h)) + ":" + PadTwo(Digits(m)) + ":" + PadTwo(Digits(s))
  }

  lemma ZeroDisplay()
    ensures Display(0, 0, 0) == "00:00:00"
  {
    assert Digits(0) == "0";
    assert PadTwo("0") == "00";
  }

  lemma DisplayParses(h: nat, m: nat, s: nat)
    requires m < 100 && s < 100
    ensures var parts := Split(Display(h, m, s), ':');
      && parts == [PadTwo(Digits(h)), PadTwo(Digits(m)), PadTwo(Digits(s))]
      && |parts[0]| >= 2 && |parts[1]| == 2 && |parts[2]| == 2
      && ParseClock(Display(h, m, s)) == Some(Hms(h, m, s))
  {
    var ph, pm, ps := PadTwo(Digits(h)), PadTwo(Digits(m)), PadTwo(Digits(s));
    PaddedValue(h);
    PaddedValue(m);
    PaddedValue(s);
    JoinThree(ph, pm, ps);
  }

  lemma JoinThree(a: string, b: string, c: string)
    requires ':' !in a && ':' !in b && ':' !in c
    ensures Split(a + ":" + b + ":" + c, ':') == [a, b, c]
  {
    assert Join([c], ':') == c;
    assert [a, b, c][1..] == [b, c] && [b, c][1..] == [c];
    assert Join([b, c], ':') == b + [':'] + c;
    assert Join([a, b, c], ':') == a + [':'] + (b + [':'] + c);
    assert a + ":" + b + ":" + c == a + [':'] + (b + [':'] + c);
    SplitJoin([a, b, c], ':');
  }

  /** Whole seconds split into hours, minutes below 60 and seconds below 60. */
  lemma SplitSeconds(total: nat)
    ensures var h, m, s := total / 3600, JsRem(total, 3600) / 60, JsRem(total, 60);
      h * 3600 + m * 60 + s == total && 0 <= m < 60 && 0 <= s < 60
  {
    var h, r := total / 3600, total % 3600;
    assert total == h * 3600 + r;
    var m, s := r / 60, r % 60;
    assert r == m * 60 + s;
    assert total == (h * 60 + m) * 60 + s;
    assert total % 60 == s;
  }

  /** Padding a decimal string keeps its digits and its value. */
  lemma PaddedValue(n: nat)
    ensures AllDigits(PadTwo(Digits(n)))
    ensures Value(PadTwo(Digits(n))) == n
    ensures ':' !in PadTwo(Digits(n))
    ensures n < 100 ==> |PadTwo(Digits(n))| == 2
  {
    DigitsValue(n);
    var d := Digits(n);
    if |d| < 2 {
      assert PadTwo(d) == ['0'] + d;
      LeadingZero(d);
    }
  }

  lemma {:induction false} DigitsValue(n: nat)
    ensures Value(Digits(n)) == n
  {
    if n >= 10 {
      DigitsValue(n / 10);
      var d := Digits(n);
      assert d[..|d| - 1] == Digits(n / 10);
    }
  }

  lemma {:induction false} LeadingZero(s: string)
    requires AllDigits(s)
    ensures AllDigits(['0'] + s) && Value(['0'] + s) == Value(s)
  {
    if s != [] {
      var t := ['0'] + s;
      assert t[..|t| - 1] == ['0'] + s[..|s| - 1];
      LeadingZero(s[..|s| - 1]);
    }
  }

  /** A negative countdown would show a minus sign: the controller must
      never hand one to the display. */
  lemma NegativeShowsSign(ms: int)
    requires ms < 0
    ensures '-' in FormatRemainingTime(Some(ms))
  {
    var total := ms / 1000;
    var hours := total / 3600;
    assert hours < 0;
    var h := PadTwo(IntString(hours));
    assert IntString(hours)[0] == '-';
    assert h[0] == '-';
    var r := FormatRemainingTime(Some(ms));
    assert r[0] == '-';
  }

  /** The documented examples. */
  lemma Examples()
    ensures FormatRemainingTime(Some(3661000)) == "01:01:01"
    ensures FormatRemainingTime(Some(0)) == "00:00:00"
    ensures FormatRemainingTime(None) == "00:00:00"
  {
    var total := 3661000 / 1000;
    assert total == 3661;
    assert total / 3600 == 1;
    assert JsRem(total, 3600) == 61;
    assert JsRem(total, 3600) / 60 == 1;
    assert JsRem(total, 60) == 1;
    assert IntString(1) == "1";
    assert PadTwo("1") == "01";
  }
}

=== FILE: common.dfy ===
/** Values shared by every part of the model: an optional value, the JSON
    values a request body can carry, JavaScript truthiness, and substring
    search. */
module Common {

  datatype Option<T> = None | Some(value: T)

  /** A JSON request field as JavaScript sees it once parsed. Numbers are
      kept as reals: the model never does arithmetic on coordinates, it only
      asks whether they are falsy. */
  datatype JsValue =
    | Undefined
    | Null
    | Bool(b: bool)
    | Num(x: real)
    | NaN
    | Str(s: string)

  /** JavaScript truthiness: `undefined`, `null`, `false`, `0`, `NaN` and the
      empty string are falsy, everything else is truthy. */
  predicate Truthy(v: JsValue) {
    match v
    case Undefined => false
    case Null => false
    case Bool(b) => b
    case Num(x) => x != 0.0
    case NaN => false
    case Str(s) => s != ""
  }

  /** `s.includes(sub)`. */
  predicate Contains(s: string, sub: string)
    decreases |s|
  {
    sub <= s || (|s| > 0 && Contains(s[1..], sub))
  }

  /** `s.split(sep)` in JavaScript: the pieces between separators, empty
      pieces included, and one piece for a string without a separator. */
  function Split(s: string, sep: char): (parts: seq<string>)
    ensures |parts| >= 1
    ensures forall i :: 0 <= i < |parts| ==> sep !in parts[i]
  {
    if s == [] then [[]]
    else
      var rest := Split(s[1..], sep);
      if s[0] == sep then [[]] + rest
      else [[s[0]] + rest[0]] + rest[1..]
  }

  /** `parts.join(sep)`. */
  function Join(parts: seq<string>, sep: char): string
    requires |parts| >= 1
  {
    if |parts| == 1 then parts[0]
    else parts[0] + [sep] + Join(parts[1..], sep)
  }

  /** Splitting and joining again gives back the header. */
  lemma {:induction false} JoinSplit(s: string, sep: char)
    ensures Join(Split(s, sep), sep) == s
  {
    if s != [] {
      JoinSplit(s[1..], sep);
      var rest := Split(s[1..], sep);
      if s[0] == sep {
        assert s == [sep] + s[1..];
      } else {
        if |rest| == 1 {
          assert s == [s[0]] + rest[0];
        } else {
          assert Join(rest, sep) == rest[0] + [sep] + Join(rest[1..], sep);
          assert s == ([s[0]] + rest[0]) + [sep] + Join(rest[1..], sep);
        }
      }
    }
  }

  /** Joining separator-free pieces and splitting again gives the pieces. */
  lemma {:induction false} SplitJoin(parts: seq<string>, sep: char)
    requires |parts| >= 1
    requires forall i :: 0 <= i < |parts| ==> sep !in parts[i]
    ensures Split(Join(parts, sep), sep) == parts
  {
    if |parts| == 1 {
      SplitWithoutSep(parts[0], sep);
    } else {
      SplitJoin(parts[1..], sep);
      SplitAfterField(parts[0], Join(parts[1..], sep), sep);
      assert [parts[0]] + parts[1..] == parts;
    }
  }

  lemma {:induction false} SplitWithoutSep(s: string, sep: char)
    requires sep !in s
    ensures Split(s, sep) == [s]
  {
    if s != [] {
      SplitWithoutSep(s[1..], sep);
      assert [s[0]] + s[1..] == s;
    }
  }

  lemma {:induction false} SplitAfterField(p: string, q: string, sep: char)
    requires sep !in p
    ensures Split(p + [sep] + q, sep) == [p] + Split(q, sep)
  {
    if p == [] {
      assert p + [sep] + q == [sep] + q;
      assert ([sep] + q)[1..] == q;
    } else {
      var s := p + [sep] + q;
      assert s[1..] == p[1..] + [sep] + q;
      SplitAfterField(p[1..], q, sep);
      assert [p[0]] + p[1..] == p;
    }
  }
}

=== FILE: legacy_server.dfy ===
/** The older server copy at the repository root (index.js): the same users
    table and the same one-spot-per-user store, without a timer table. Its
    default spot timestamp is a local-time string rather than an ISO one;
    both are the input `nowStamp` here. */
module LegacyServer {
  import opened Common
  import opened OwnerTable
  import opened Schema
  import opened Auth
  import SpotStore

  datatype Db = Db(users: Users, spots: Table<SpotData>)

  ghost predicate Valid(db: Db) {
    UniqueKeys(db.users) && OwnerTable.Valid(db.spots)
  }

  /** The `status` field of the health reply. */
  const HealthStatus: string := "OK"

  function RegisterUser(db: Db, crypto: Crypto, username: JsValue, password: JsValue,
                        email: JsValue, now: string): (r: (Db, Response))
    ensures !Truthy(username) || !Truthy(password) ==> r.0 == db && r.1.status == 400
    ensures r.1.status == 409 ==> r.0 == db && Clash(db.users.rows, username, email)
    ensures r.0.spots == db.spots
    ensures Valid(db) ==> Valid(r.0)
  {
    var (users', resp) := Register(db.users, crypto, username, password, email, now);
    (db.(users := users'), resp)
  }

  function GetParkingSpot(db: Db, crypto: Crypto, header: Option<string>): (r: Response)
    ensures Authenticate(header, crypto) == Unauthenticated ==> r.status == 401
    ensures Authenticate(header, crypto) == Forbidden ==> r.status == 403
    ensures Authenticate(header, crypto).Authenticated? ==>
      var u := Authenticate(header, crypto).user;
      && r.status == 200 && r.body.SpotJson?
      && (r.body.spot.Some? <==> u in View(db.spots.rows))
      && (r.body.spot.Some? ==> r.body.spot.value.data == View(db.spots.rows)[u])
  {
    match Authenticate(header, crypto)
    case Authenticated(u) => SpotStore.Lookup(db.spots, u)
    case _ => AuthFailure(Authenticate(header, crypto))
  }

  function PostParkingSpot(db: Db, crypto: Crypto, header: Option<string>, req: SpotRequest,
                           nowStamp: string): (r: (Db, Response))
    ensures !Authenticate(header, crypto).Authenticated? ==>
      r.0 == db && (r.1.status == 401 || r.1.status == 403)
    ensures Authenticate(header, crypto).Authenticated? &&
            (!Truthy(req.latitude) || !Truthy(req.longitude)) ==>
      r.0 == db && r.1.status == 400
    ensures Authenticate(header, crypto).Authenticated? &&
            Truthy(req.latitude) && Truthy(req.longitude) ==>
      var u := Authenticate(header, crypto).user;
      && r.1.status == 200
      && RowsOf(r.0.spots.rows, u) == [Row(db.spots.nextId, u, SpotStore.Stored(req, nowStamp))]
      && View(r.0.spots.rows) == View(db.spots.rows)[u := SpotStore.Stored(req, nowStamp)]
      && SpotStore.OthersUnchanged(db.spots, r.0.spots, u)
    ensures r.0.users == db.users
    ensures Valid(db) ==> Valid(r.0)
  {
    match Authenticate(header, crypto)
    case Authenticated(u) =>
      var (spots', resp) := SpotStore.Save(db.spots, u, req, nowStamp);
      (db.(spots := spots'), resp)
    case _ => (db, AuthFailure(Authenticate(header, crypto)))
  }

  function DeleteParkingSpot(db: Db, crypto: Crypto, header: Option<string>): (r: (Db, Response))
    ensures !Authenticate(header, crypto).Authenticated? ==>
      r.0 == db && (r.1.status == 401 || r.1.status == 403)
    ensures Authenticate(header, crypto).Authenticated? ==>
      var u := Authenticate(header, crypto).user;
      && r.1.status == 200
      && View(r.0.spots.rows) == View(db.spots.rows) - {u}
      && SpotStore.OthersUnchanged(db.spots, r.0.spots, u)
    ensures r.0.users == db.users
    ensures Valid(db) ==> Valid(r.0)
  {
    match Authenticate(header, crypto)
    case Authenticated(u) =>
      var (spots', resp) := SpotStore.Clear(db.spots, u);
      (db.(spots := spots'), resp)
    case _ => (db, AuthFailure(Authenticate(header, crypto)))
  }

  /** Save then read returns the saved spot; delete then read returns null. */
  lemma SaveReadDelete(db: Db, crypto: Crypto, header: Option<string>, req: SpotRequest,
                       nowStamp: string)
    requires Authenticate(header, crypto).Authenticated?
    requires Truthy(req.latitude) && Truthy(req.longitude)
    ensures var (db1, saved) := PostParkingSpot(db, crypto, header, req, nowStamp);
      && GetParkingSpot(db1, crypto, header) == Response(200, SpotJson(Some(saved.body.saved)))
      && GetParkingSpot(DeleteParkingSpot(db1, crypto, header).0, crypto, header)
           == Response(200, SpotJson(None))
  {
    var u := Authenticate(header, crypto).user;
    var (db1, saved) := PostParkingSpot(db, crypto, header, req, nowStamp);
    FindFollowsRowsOf(db1.spots.rows, [saved.body.saved], u);
    var db2 := DeleteParkingSpot(db1, crypto, header).0;
    FindFollowsRowsOf(db2.spots.rows, [], u);
  }
}

=== FILE: owner_table.dfy ===
/** A table whose rows each belong to one user, as the SQLite tables
    `parking_spots` and `timer_data` are used by the server: a save deletes
    every row of the user and then inserts one, a clear deletes every row of
    the user, and a read selects a row of the user. The rows are a sequence,
    as in the database, so that "at most one row per user" is an invariant
    the operations keep rather than a fact of the representation; `View`
    gives the abstract map from user to record that the operations
    implement. */
module OwnerTable {
  import opened Common

  type UserId = nat

  /** A stored row: its autoincrement id, the owning user, and the record. */
  datatype Row<T> = Row(id: nat, owner: UserId, data: T)

  /** The rows in storage order and the next autoincrement id. */
  datatype Table<T> = Table(rows: seq<Row<T>>, nextId: nat)

  /** The rows of user `u`, in storage order. */
  function RowsOf<T(!new)>(rows: seq<Row<T>>, u: UserId): (r: seq<Row<T>>)
    ensures forall x :: x in r <==> x in rows && x.owner == u
    ensures |r| <= |rows|
  {
    if rows == [] then []
    else (if rows[0].owner == u then [rows[0]] else []) + RowsOf(rows[1..], u)
  }

  /** `DELETE FROM table WHERE user_id = u`. */
  function Without<T(!new)>(rows: seq<Row<T>>, u: UserId): (r: seq<Row<T>>)
    ensures forall x :: x in r <==> x in rows && x.owner != u
    ensures |r| <= |rows|
  {
    if rows == [] then []
    else (if rows[0].owner != u then [rows[0]] else []) + Without(rows[1..], u)
  }

  /** The table invariant: no user owns two rows. */
  ghost predicate OnePerOwner<T(!new)>(rows: seq<Row<T>>) {
    forall u :: |RowsOf(rows, u)| <= 1
  }

  /** Every stored id was handed out before `nextId`. */
  predicate IdsBelow<T(!new)>(t: Table<T>) {
    forall i :: 0 <= i < |t.rows| ==> t.rows[i].id < t.nextId
  }

  ghost predicate Valid<T(!new)>(t: Table<T>) {
    OnePerOwner(t.rows) && IdsBelow(t)
  }

  /** `SELECT * FROM table WHERE user_id = u LIMIT 1`: the first row of `u`. */
  function Find<T(!new)>(rows: seq<Row<T>>, u: UserId): (r: Option<Row<T>>)
    ensures r.None? <==> (forall x :: x in rows ==> x.owner != u)
    ensures r.Some? ==> r.value in rows && r.value.owner == u
  {
    if rows == [] then None
    else if rows[0].owner == u then Some(rows[0])
    else Find(rows[1..], u)
  }

  /** The abstract store: each user mapped to the record of its first row. */
  function View<T(!new)>(rows: seq<Row<T>>): map<UserId, T> {
    if rows == [] then map[]
    else View(rows[1..])[rows[0].owner := rows[0].data]
  }

  /** Save for user `u`: delete all of the user's rows, then insert one row
      with a fresh id. Returns the new table and the inserted row. */
  function Replace<T(!new)>(t: Table<T>, u: UserId, data: T): (r: (Table<T>, Row<T>))
    ensures r.1 == Row(t.nextId, u, data)
    ensures RowsOf(r.0.rows, u) == [r.1]
    ensures forall v :: v != u ==> RowsOf(r.0.rows, v) == RowsOf(t.rows, v)
    ensures r.0.nextId == t.nextId + 1
    ensures Valid(t) ==> Valid(r.0)
  {
    var row := Row(t.nextId, u, data);
    var rows := Without(t.rows, u) + [row];
    RowsOfAppend(Without(t.rows, u), [row], u);
    RowsOfWithoutSame(t.rows, u);
    forall v | v != u
      ensures RowsOf(rows, v) == RowsOf(t.rows, v)
    {
      RowsOfAppend(Without(t.rows, u), [row], v);
      RowsOfWithoutOther(t.rows, u, v);
    }
    assert Valid(t) ==> OnePerOwner(rows) by {
      if Valid(t) {
        forall v ensures |RowsOf(rows, v)| <= 1 {
          if v != u {
            assert RowsOf(rows, v) == RowsOf(t.rows, v);
          }
        }
      }
    }
    (Table(rows, t.nextId + 1), row)
  }

  /** Clear for user `u`: delete all of the user's rows. */
  function Remove<T(!new)>(t: Table<T>, u: UserId): (r: Table<T>)
    ensures RowsOf(r.rows, u) == []
    ensures forall v :: v != u ==> RowsOf(r.rows, v) == RowsOf(t.rows, v)
    ensures r.nextId == t.nextId
    ensures Valid(t) ==> Valid(r)
  {
    var rows := Without(t.rows, u);
    RowsOfWithoutSame(t.rows, u);
    forall v | v != u
      ensures RowsOf(rows, v) == RowsOf(t.rows, v)
    {
      RowsOfWithoutOther(t.rows, u, v);
    }
    assert Valid(t) ==> OnePerOwner(rows) by {
      if Valid(t) {
        forall v ensures |RowsOf(rows, v)| <= 1 {
          if v != u {
            assert RowsOf(rows, v) == RowsOf(t.rows, v);
          }
        }
      }
    }
    Table(rows, t.nextId)
  }

  lemma {:induction false} RowsOfAppend<T(!new)>(a: seq<Row<T>>, b: seq<Row<T>>, u: UserId)
    ensures RowsOf(a + b, u) == RowsOf(a, u) + RowsOf(b, u)
  {
    if a == [] {
      assert a + b == b;
    } else {
      assert (a + b)[1..] == a[1..] + b;
      RowsOfAppend(a[1..], b, u);
    }
  }

  lemma {:induction false} RowsOfWithoutSame<T(!new)>(rows: seq<Row<T>>, u: UserId)
    ensures RowsOf(Without(rows, u), u) == []
  {
    if rows != [] {
      RowsOfWithoutSame(rows[1..], u);
      var head := if rows[0].owner != u then [rows[0]] else [];
      RowsOfAppend(head, Without(rows[1..], u), u);
    }
  }

  lemma {:induction false} RowsOfWithoutOther<T(!new)>(rows: seq<Row<T>>, u: UserId, v: UserId)
    requires u != v
    ensures RowsOf(Without(rows, u), v) == RowsOf(rows, v)
  {
    if rows != [] {
      RowsOfWithoutOther(rows[1..], u, v);
      var head := if rows[0].owner != u then [rows[0]] else [];
      RowsOfAppend(head, Without(rows[1..], u), v);
    }
  }

  /** The abstract store agrees with the row a read returns. */
  lemma {:induction false} ViewMatchesFind<T(!new)>(rows: seq<Row<T>>, u: UserId)
    ensures u in View(rows) <==> Find(rows, u).Some?
    ensures u in View(rows) ==> View(rows)[u] == Find(rows, u).value.data
  {
    if rows != [] {
      ViewMatchesFind(rows[1..], u);
    }
  }

  /** Deleting a user's rows removes exactly that user from the store. */
  lemma {:induction false} ViewWithout<T(!new)>(rows: seq<Row<T>>, u: UserId)
    ensures View(Without(rows, u)) == View(rows) - {u}
  {
    if rows != [] {
      var head, rest := rows[0], rows[1..];
      ViewWithout(rest, u);
      var below := View(rest);
      if head.owner == u {
        assert Without(rows, u) == Without(rest, u);
        assert below - {u} == below[u := head.data] - {u};
      } else {
        var w := [head] + Without(rest, u);
        assert Without(rows, u) == w;
        assert w[1..] == Without(rest, u);
        assert View(w) == (below - {u})[head.owner := head.data];
        assert (below - {u})[head.owner := head.data] == below[head.owner := head.data] - {u};
      }
    }
  }

  /** Appending a row for a user that owns no row adds that user. */
  lemma {:induction false} ViewAppendFresh<T(!new)>(rows: seq<Row<T>>, row: Row<T>)
    requires forall x :: x in rows ==> x.owner != row.owner
    ensures View(rows + [row]) == View(rows)[row.owner := row.data]
  {
    if rows == [] {
      assert rows + [row] == [row];
    } else {
      assert (rows + [row])[1..] == rows[1..] + [row];
      ViewAppendFresh(rows[1..], row);
    }
  }

  /** Save is an update of the abstract store at the caller's key. */
  lemma ViewReplace<T(!new)>(t: Table<T>, u: UserId, data: T)
    ensures View(Replace(t, u, data).0.rows) == View(t.rows)[u := data]
  {
    var row := Row(t.nextId, u, data);
    ViewAppendFresh(Without(t.rows, u), row);
    ViewWithout(t.rows, u);
  }

  /** Clear is a removal of the caller's key from the abstract store. */
  lemma ViewRemove<T(!new)>(t: Table<T>, u: UserId)
    ensures View(Remove(t, u).rows) == View(t.rows) - {u}
  {
    ViewWithout(t.rows, u);
  }

  /** A read depends only on the reader's own rows. */
  lemma {:induction false} FindFollowsRowsOf<T(!new)>(a: seq<Row<T>>, b: seq<Row<T>>, u: UserId)
    requires RowsOf(a, u) == RowsOf(b, u)
    ensures Find(a, u) == Find(b, u)
  {
    FindIsFirstOfRowsOf(a, u);
    FindIsFirstOfRowsOf(b, u);
  }

  lemma {:induction false} FindIsFirstOfRowsOf<T(!new)>(rows: seq<Row<T>>, u: UserId)
    ensures Find(rows, u) == if RowsOf(rows, u) == [] then None else Some(RowsOf(rows, u)[0])
  {
    if rows != [] {
      FindIsFirstOfRowsOf(rows[1..], u);
    }
  }
}

=== FILE: scenarios.dfy ===
/** Properties that span the server, the client controller and the
    transport layer. */
module Scenarios {
  import opened Common
  import opened TimerController
  import Clock
  import Transport
  import Server
  import LegacyServer
  import Auth
  import Schema

  /** The interval callback run at each of `times`, in order. */
  function Ticks(c: Controller, signedIn: Option<UserId>, times: seq<int>): (Controller, seq<Effect>)
    decreases |times|
  {
    if times == [] then (c, [])
    else
      var (c1, e1) := Tick(c, signedIn, times[0]);
      var (c2, e2) := Ticks(c1, signedIn, times[1..]);
      (c2, e1 + e2)
  }

  /** While its interval keeps running, a timer ticked only before its end
      stays active with the same interval, and shows the time left after the
      last tick. */
  lemma {:induction false} TicksBeforeEnd(c: Controller, u: UserId, times: seq<int>)
    requires Inv(c) && c.ticker.Some? && !TickerStops(c.ticker.value, Some(u))
    requires forall i :: 0 <= i < |times| ==> times[i] < c.ticker.value.end
    ensures var r := Ticks(c, Some(u), times).0;
      && Inv(r) && r.ticker == c.ticker && PhaseOf(r) == PhaseOf(c)
      && PhaseOf(r) == Active(c.ticker.value.end)
      && (times != [] ==> r.remaining == Some(c.ticker.value.end - times[|times| - 1]))
    ensures Ticks(c, Some(u), times).1 == []
    decreases |times|
  {
    if times != [] {
      var c1 := Tick(c, Some(u), times[0]).0;
      assert Tick(c, Some(u), times[0]) == (c1, []);
      TicksBeforeEnd(c1, u, times[1..]);
      if |times| > 1 {
        assert times[1..][|times[1..]| - 1] == times[|times| - 1];
      }
    }
  }

  /** Starting a timer, ticking before its end, then ticking once at or after
      it: the timer expires and its server row is deleted; later ticks change
      nothing. */
  lemma StartTickExpire(c: Controller, u: UserId, hours: nat, minutes: nat, now: int, id: string,
                        before: seq<int>, at: int, after: seq<int>)
    requires Inv(c) && !c.starting && (hours > 0 || minutes > 0)
    requires var end := now + Duration(hours, minutes);
      (forall i :: 0 <= i < |before| ==> before[i] < end) && at >= end
    ensures var c0 := StartTimer(c, Some(u), hours, minutes, now, Some(id)).0;
      var c1 := Ticks(c0, Some(u), before).0;
      var (c2, e2) := Tick(c1, Some(u), at);
      && PhaseOf(c2) == Expired && DeleteTimerRow in e2
      && Ticks(c2, Some(u), after) == (c2, [])
  {
    var end := now + Duration(hours, minutes);
    var c0 := StartTimer(c, Some(u), hours, minutes, now, Some(id)).0;
    assert c0.ticker == Some(Ticker(StartedTick, u, end, Some(u), c.notificationId));
    TicksBeforeEnd(c0, u, before);
    var c1 := Ticks(c0, Some(u), before).0;
    var c2 := Tick(c1, Some(u), at).0;
    IdleTicks(c2, Some(u), after);
  }

  /** The started interval's `clearTimerData` reads the `notificationId` of
      the render that pressed Start. When no notification was pending then,
      the expiry cancels nothing and the one just scheduled stays recorded;
      when one was, that older one is cancelled again and the record is
      emptied. */
  lemma StartExpireCancelsStaleNotification(c: Controller, u: UserId, hours: nat, minutes: nat,
                                            now: int, id: string, at: int)
    requires Inv(c) && !c.starting && (hours > 0 || minutes > 0)
    requires at >= now + Duration(hours, minutes)
    ensures var c0 := StartTimer(c, Some(u), hours, minutes, now, Some(id)).0;
      var (c1, e1) := Tick(c0, Some(u), at);
      && PhaseOf(c1) == Expired
      && (c.notificationId.None? ==>
            c1.notificationId == Some(id) && forall e :: e in e1 ==> !e.CancelNotification?)
      && (c.notificationId.Some? ==>
            c1.notificationId.None? && CancelNotification(c.notificationId.value) in e1)
  {
    var end := now + Duration(hours, minutes);
    var c0 := StartTimer(c, Some(u), hours, minutes, now, Some(id)).0;
    assert c0.ticker == Some(Ticker(StartedTick, u, end, Some(u), c.notificationId));
  }

  /** Without an interval, ticks do nothing. */
  lemma {:induction false} IdleTicks(c: Controller, signedIn: Option<UserId>, times: seq<int>)
    requires c.ticker.None?
    ensures Ticks(c, signedIn, times) == (c, [])
    decreases |times|
  {
    if times != [] {
      assert Tick(c, signedIn, times[0]) == (c, []);
      IdleTicks(c, signedIn, times[1..]);
      var empty: seq<Effect> := [];
      assert empty + empty == empty;
    }
  }

  /** A running timer's display always reads back as a clock face whose
      fields add up to the whole seconds left. */
  lemma ActiveDisplayWellFormed(c: Controller)
    requires Inv(c) && c.active
    ensures var face := Clock.ParseClock(Clock.FormatRemainingTime(c.remaining));
      && face.Some?
      && face.value.hours * 3600 + face.value.minutes * 60 + face.value.seconds
         == c.remaining.value / 1000
  {
    Clock.FormatDecomposes(c.remaining.value);
  }

  /** Cancelling deletes the server row; the server then answers null, and
      reloading from that answer leaves the timer idle. */
  lemma CancelThenReload(c: Controller, u: UserId, db: Server.Db, crypto: Auth.Crypto,
                         header: Option<string>, now: int)
    requires Inv(c)
    requires Auth.Authenticate(header, crypto) == Auth.Authenticated(u)
    ensures DeleteTimerRow in CancelTimer(c, Some(u)).1
    ensures var db' := Server.DeleteTimerData(db, crypto, header).0;
      Server.GetTimerData(db', crypto, header) == Schema.Response(200, Schema.TimerJson(None))
    ensures var c1 := CancelTimer(c, Some(u)).0;
      var r := LoadTimerData(c1, Some(u), Some(u), c1.notificationId, Fetched(None), now);
      PhaseOf(r.0) == Idle && !r.2 && Inv(r.0)
  {
    Server.DeleteThenGetTimer(db, crypto, header, None);
  }

  /** Logging out keeps the server row; signing back in before the end
      resumes the same countdown. The login handler's call comes from the
      render before sign-in, so the resumed interval captured no user. */
  lemma LogoutThenResume(c: Controller, u: UserId, row: ServerTimer, now: int)
    requires Inv(c) && row.active && row.end.Some? && row.end.value > now
    ensures DeleteTimerRow !in Logout(c, Some(u)).1
    ensures var c1 := Logout(c, Some(u)).0;
      var r := LoadTimerData(c1, Some(u), None, None, Fetched(Some(row)), now);
      && PhaseOf(c1) == Idle
      && PhaseOf(r.0) == Active(row.end.value) && r.2 && Inv(r.0)
      && r.0.ticker == Some(Ticker(ResumedTick, u, row.end.value, None, None))
  {
  }

  /** A timer resumed at sign-in that runs out expires on screen, but its
      interval's `clearTimerData` sees no user: the server row is not
      deleted, so the next load from the foreground (whose render has the
      user) finds it expired again and deletes it then. */
  lemma LoginResumeExpiresWithoutDelete(c: Controller, u: UserId, row: ServerTimer,
                                        now: int, later: int)
    requires Inv(c) && row.active && row.end.Some? && row.end.value > now
    requires later >= row.end.value
    ensures var c1 := LoadTimerData(c, Some(u), None, c.notificationId, Fetched(Some(row)), now).0;
      var (c2, e2) := Tick(c1, Some(u), later);
      && PhaseOf(c2) == Expired && e2 == []
      && var r := LoadTimerData(c2, Some(u), Some(u), c2.notificationId, Fetched(Some(row)), later);
         PhaseOf(r.0) == Expired && DeleteTimerRow in r.1
  {
    var c1 := LoadTimerData(c, Some(u), None, c.notificationId, Fetched(Some(row)), now).0;
    assert c1.ticker == Some(Ticker(ResumedTick, u, row.end.value, None, c.notificationId));
  }

  /** The foreground listener calls the `loadTimerData` of the render that
      set up its effect at sign-in. When no notification was recorded then
      and a timer started later has run out, the reload expires the timer
      and deletes its row, but cancels nothing: the notification of the
      started timer stays recorded. */
  lemma ForegroundReloadKeepsNotification(c: Controller, u: UserId, hours: nat, minutes: nat,
                                          now: int, id: string, row: ServerTimer, later: int)
    requires Inv(c) && !c.starting && (hours > 0 || minutes > 0) && c.notificationId.None?
    requires row.active && row.end == Some(now + Duration(hours, minutes))
    requires later >= row.end.value
    ensures var c0 := StartTimer(c, Some(u), hours, minutes, now, Some(id)).0;
      var r := LoadTimerData(c0, Some(u), Some(u), c.notificationId, Fetched(Some(row)), later);
      && PhaseOf(r.0) == Expired && DeleteTimerRow in r.1 && !r.2
      && r.0.notificationId == Some(id)
      && forall e :: e in r.1 ==> !e.CancelNotification?
  {
  }

  /** A spot save that still fails transiently after its retries is staged,
      and the next successful automatic replay posts exactly that payload
      and empties the slot. */
  lemma StagedSaveReplayed<P, R>(url: string, payload: P, message: string, status: Option<int>,
                                 previous: Option<P>, d: R)
    requires url != "" && Contains(url, "/parking-spot") && status != Some(401)
    ensures var cfg := Transport.AutoSyncRequest(url, payload).(retryCount := 3);
      var slot := Transport.Stage(previous, Transport.Intercept(Transport.Failure(Some(cfg), message, status)));
      && slot == Some(payload)
      && Transport.AutoSync(slot, true, true, Transport.Answered(Some(d)))
         == Transport.SyncResult(None, Some(payload), Some(d))
  {
  }

  /** Both servers' health reply fails the client's check as written, so a
      staged spot is never replayed automatically, whatever the replay would
      have answered. */
  lemma HealthyServerLooksAsleep<P, R>(slot: Option<P>, online: bool,
                                       wakeup: Option<string>, post: Transport.Outcome<R>)
    ensures !Transport.ServerAwakeAsWritten(Some(Server.HealthStatus), wakeup)
    ensures !Transport.ServerAwakeAsWritten(Some(LegacyServer.HealthStatus), wakeup)
    ensures !Transport.ServerAwakeAsWritten(None, Some(Server.HealthStatus))
    ensures var awake := Transport.ServerAwakeAsWritten(Some(Server.HealthStatus), wakeup);
      Transport.AutoSync(slot, online, awake, post) == Transport.SyncResult(slot, None, None)
  {
  }

  /** With the check accepting the servers' reply, a staged spot is replayed
      as soon as the network is up, and cleared once the server answers. */
  lemma HealthyServerReplays<P, R>(payload: P, wakeup: Option<string>, d: R)
    ensures Transport.ServerAwake(Some(Server.HealthStatus), wakeup)
    ensures Transport.ServerAwake(None, Some(LegacyServer.HealthStatus))
    ensures var awake := Transport.ServerAwake(Some(Server.HealthStatus), wakeup);
      Transport.AutoSync(Some(payload), true, awake, Transport.Answered(Some(d)))
        == Transport.SyncResult(None, Some(payload), Some(d))
  {
  }

  /** As written, a manual sync never posts a staged spot; with the
      production check evaluated, a development build posts it. */
  lemma ManualSyncNeverPosts<P, R>(payload: P, awake: bool, post: Transport.Outcome<R>)
    ensures Transport.ManualSyncAsWritten(Some(payload), true, post).posted.None?
    ensures Transport.ManualSync(Some(payload), true, false, awake, post).posted == Some(payload)
  {
  }
}

=== FILE: schema.dfy ===
/** The records the server stores and the responses it sends, shared by the
    authenticated server (server/index.js) and its older copy (index.js). */
module Schema {
  import opened Common
  import opened OwnerTable

  /** A parking-spot record as inserted: every field is stored as given in
      the request body, except `timestamp`, which the server fills in. */
  datatype SpotData = SpotData(
    latitude: JsValue,
    longitude: JsValue,
    address: JsValue,
    notes: JsValue,
    imageUri: JsValue,
    timestamp: JsValue)

  /** A timer record; `timerActive` is the stored 0/1 column. */
  datatype TimerData = TimerData(
    timerEnd: JsValue,
    timerActive: int,
    hours: JsValue,
    minutes: JsValue,
    notificationId: JsValue)

  /** The body of `POST /api/parking-spot`. */
  datatype SpotRequest = SpotRequest(
    latitude: JsValue,
    longitude: JsValue,
    address: JsValue,
    notes: JsValue,
    imageUri: JsValue,
    timestamp: JsValue)

  /** The body of `POST /api/timer-data`. */
  datatype TimerRequest = TimerRequest(
    timerEnd: JsValue,
    timerActive: JsValue,
    hours: JsValue,
    minutes: JsValue,
    notificationId: JsValue)

  /** The user fields the server sends back (never the password hash). */
  datatype PublicUser = PublicUser(id: UserId, username: JsValue, email: JsValue)

  datatype Body =
    | ErrorText(error: string)
    | Message(text: string)
    | SpotJson(spot: Option<Row<SpotData>>)
    | SavedSpot(saved: Row<SpotData>)
    | TimerJson(timer: Option<Row<TimerData>>)
    | SavedTimer(savedTimer: Row<TimerData>)
    | Session(user: PublicUser, token: string)
    | Profile(user: PublicUser, createdAt: string)

  datatype Response = Response(status: nat, body: Body)
}

=== FILE: server.dfy ===
/** The authenticated server (server/index.js): users, one parking spot per
    user and one timer row per user, each route a transition of the whole
    database. Database errors (the 500 replies) are not modelled. */
module Server {
  import opened Common
  import opened OwnerTable
  import opened Schema
  import opened Auth
  import SpotStore

  datatype Db = Db(users: Users, spots: Table<SpotData>, timers: Table<TimerData>)

  ghost predicate Valid(db: Db) {
    UniqueKeys(db.users) && OwnerTable.Valid(db.spots) && OwnerTable.Valid(db.timers)
  }

  /** The `status` field of the health reply. */
  const HealthStatus: string := "OK"

  /** `POST /api/users/register`. */
  function RegisterUser(db: Db, crypto: Crypto, username: JsValue, password: JsValue,
                        email: JsValue, now: string): (r: (Db, Response))
    ensures r.0.spots == db.spots && r.0.timers == db.timers
    ensures r.1 == Register(db.users, crypto, username, password, email, now).1
    ensures Valid(db) ==> Valid(r.0)
  {
    var (users', resp) := Register(db.users, crypto, username, password, email, now);
    (db.(users := users'), resp)
  }

  // ---------------------------------------------------------------------
  // /api/parking-spot

  function GetParkingSpot(db: Db, crypto: Crypto, header: Option<string>): (r: Response)
    ensures Authenticate(header, crypto) == Unauthenticated ==> r.status == 401
    ensures Authenticate(header, crypto) == Forbidden ==> r.status == 403
    ensures Authenticate(header, crypto).Authenticated? ==>
      var u := Authenticate(header, crypto).user;
      && r.status == 200 && r.body.SpotJson?
      && (r.body.spot.Some? <==> u in View(db.spots.rows))
      && (r.body.spot.Some? ==> r.body.spot.value.data == View(db.spots.rows)[u])
  {
    match Authenticate(header, crypto)
    case Authenticated(u) => SpotStore.Lookup(db.spots, u)
    case _ => AuthFailure(Authenticate(header, crypto))
  }

  function PostParkingSpot(db: Db, crypto: Crypto, header: Option<string>, req: SpotRequest,
                           nowStamp: string): (r: (Db, Response))
    ensures !Authenticate(header, crypto).Authenticated? ==>
      r.0 == db && (r.1.status == 401 || r.1.status == 403)
    ensures Authenticate(header, crypto).Authenticated? &&
            (!Truthy(req.latitude) || !Truthy(req.longitude)) ==>
      r.0 == db && r.1.status == 400
    ensures Authenticate(header, crypto).Authenticated? &&
            Truthy(req.latitude) && Truthy(req.longitude) ==>
      var u := Authenticate(header, crypto).user;
      && r.1.status == 200
      && RowsOf(r.0.spots.rows, u) == [Row(db.spots.nextId, u, SpotStore.Stored(req, nowStamp))]
      && SpotStore.OthersUnchanged(db.spots, r.0.spots, u)
    ensures r.0.users == db.users && r.0.timers == db.timers
    ensures Valid(db) ==> Valid(r.0)
  {
    match Authenticate(header, crypto)
    case Authenticated(u) =>
      var (spots', resp) := SpotStore.Save(db.spots, u, req, nowStamp);
      (db.(spots := spots'), resp)
    case _ => (db, AuthFailure(Authenticate(header, crypto)))
  }

  function DeleteParkingSpot(db: Db, crypto: Crypto, header: Option<string>): (r: (Db, Response))
    ensures !Authenticate(header, crypto).Authenticated? ==>
      r.0 == db && (r.1.status == 401 || r.1.status == 403)
    ensures Authenticate(header, crypto).Authenticated? ==>
      var u := Authenticate(header, crypto).user;
      && r.1.status == 200
      && RowsOf(r.0.spots.rows, u) == []
      && SpotStore.OthersUnchanged(db.spots, r.0.spots, u)
    ensures r.0.users == db.users && r.0.timers == db.timers
    ensures Valid(db) ==> Valid(r.0)
  {
    match Authenticate(header, crypto)
    case Authenticated(u) =>
      var (spots', resp) := SpotStore.Clear(db.spots, u);
      (db.(spots := spots'), resp)
    case _ => (db, AuthFailure(Authenticate(header, crypto)))
  }

  // ---------------------------------------------------------------------
  // /api/timer-data

  /** The row a valid timer save stores: `timer_active` becomes 1 when
      truthy and 0 otherwise, the other fields as given. */
  function StoredTimer(req: TimerRequest): (d: TimerData)
    ensures d.timerActive == 1 || d.timerActive == 0
    ensures d.timerActive == 1 <==> Truthy(req.timerActive)
    ensures d.timerEnd == req.timerEnd && d.hours == req.hours && d.minutes == req.minutes
    ensures d.notificationId == req.notificationId
  {
    TimerData(req.timerEnd, if Truthy(req.timerActive) then 1 else 0,
              req.hours, req.minutes, req.notificationId)
  }

  function GetTimerData(db: Db, crypto: Crypto, header: Option<string>): (r: Response)
    ensures Authenticate(header, crypto) == Unauthenticated ==> r.status == 401
    ensures Authenticate(header, crypto) == Forbidden ==> r.status == 403
    ensures Authenticate(header, crypto).Authenticated? ==>
      var u := Authenticate(header, crypto).user;
      && r.status == 200 && r.body.TimerJson?
      && (r.body.timer.Some? <==> u in View(db.timers.rows))
      && (r.body.timer.Some? ==>
            r.body.timer.value.owner == u && r.body.timer.value.data == View(db.timers.rows)[u])
  {
    match Authenticate(header, crypto)
    case Authenticated(u) =>
      ViewMatchesFind(db.timers.rows, u);
      Response(200, TimerJson(Find(db.timers.rows, u)))
    case _ => AuthFailure(Authenticate(header, crypto))
  }

  function PostTimerData(db: Db, crypto: Crypto, header: Option<string>, req: TimerRequest)
    : (r: (Db, Response))
    ensures !Authenticate(header, crypto).Authenticated? ==>
      r.0 == db && (r.1.status == 401 || r.1.status == 403)
    ensures Authenticate(header, crypto).Authenticated? && !Truthy(req.timerEnd) ==>
      r.0 == db && r.1.status == 400
    ensures Authenticate(header, crypto).Authenticated? && Truthy(req.timerEnd) ==>
      var u := Authenticate(header, crypto).user;
      && r.1.status == 200
      && RowsOf(r.0.timers.rows, u) == [Row(db.timers.nextId, u, StoredTimer(req))]
      && r.1.body == SavedTimer(Row(db.timers.nextId, u, StoredTimer(req)))
      && View(r.0.timers.rows) == View(db.timers.rows)[u := StoredTimer(req)]
      && SpotStore.OthersUnchanged(db.timers, r.0.timers, u)
    ensures r.0.users == db.users && r.0.spots == db.spots
    ensures Valid(db) ==> Valid(r.0)
  {
    match Authenticate(header, crypto)
    case Authenticated(u) =>
      if !Truthy(req.timerEnd) then
        (db, Response(400, ErrorText("Timer end time is required")))
      else
        var data := StoredTimer(req);
        ViewReplace(db.timers, u, data);
        var (timers', row) := Replace(db.timers, u, data);
        (db.(timers := timers'), Response(200, SavedTimer(row)))
    case _ => (db, AuthFailure(Authenticate(header, crypto)))
  }

  function DeleteTimerData(db: Db, crypto: Crypto, header: Option<string>): (r: (Db, Response))
    ensures !Authenticate(header, crypto).Authenticated? ==>
      r.0 == db && (r.1.status == 401 || r.1.status == 403)
    ensures Authenticate(header, crypto).Authenticated? ==>
      var u := Authenticate(header, crypto).user;
      && r.1.status == 200
      && RowsOf(r.0.timers.rows, u) == []
      && View(r.0.timers.rows) == View(db.timers.rows) - {u}
      && SpotStore.OthersUnchanged(db.timers, r.0.timers, u)
    ensures r.0.users == db.users && r.0.spots == db.spots
    ensures Valid(db) ==> Valid(r.0)
  {
    match Authenticate(header, crypto)
    case Authenticated(u) =>
      ViewRemove(db.timers, u);
      (db.(timers := Remove(db.timers, u)), Response(200, Message("Timer data cleared successfully!")))
    case _ => (db, AuthFailure(Authenticate(header, crypto)))
  }

  /** After the caller deletes its timer row, reading it back gives null,
      and every other user still reads what it read before. */
  lemma DeleteThenGetTimer(db: Db, crypto: Crypto, header: Option<string>, other: Option<string>)
    requires Authenticate(header, crypto).Authenticated?
    ensures var db' := DeleteTimerData(db, crypto, header).0;
      GetTimerData(db', crypto, header) == Response(200, TimerJson(None))
    ensures Authenticate(other, crypto).Authenticated? &&
            Authenticate(other, crypto).user != Authenticate(header, crypto).user ==>
      var db' := DeleteTimerData(db, crypto, header).0;
      GetTimerData(db', crypto, other) == GetTimerData(db, crypto, other)
  {
    var u := Authenticate(header, crypto).user;
    var db' := DeleteTimerData(db, crypto, header).0;
    ViewMatchesFind(db'.timers.rows, u);
    if Authenticate(other, crypto).Authenticated? && Authenticate(other, crypto).user != u {
      var v := Authenticate(other, crypto).user;
      FindFollowsRowsOf(db.timers.rows, db'.timers.rows, v);
    }
  }

  /** Saving a timer and reading it back returns the saved row. */
  lemma PostThenGetTimer(db: Db, crypto: Crypto, header: Option<string>, req: TimerRequest)
    requires Authenticate(header, crypto).Authenticated? && Truthy(req.timerEnd)
    ensures var (db', resp) := PostTimerData(db, crypto, header, req);
      GetTimerData(db', crypto, header) == Response(200, TimerJson(Some(resp.body.savedTimer)))
  {
    var u := Authenticate(header, crypto).user;
    var db' := PostTimerData(db, crypto, header, req).0;
    FindFollowsRowsOf(db'.timers.rows, [Row(db.timers.nextId, u, StoredTimer(req))], u);
  }
}

=== FILE: spot_store.dfy ===
/** The parking-spot routes behind authentication, identical in both
    servers: read the caller's spot, replace it, clear it. The caller is the
    user the bearer token named; the default timestamp is the server's
    formatted current time, an input here. */
module SpotStore {
  import opened Common
  import opened OwnerTable
  import opened Schema

  /** Other users' rows are exactly as they were. */
  ghost predicate OthersUnchanged<T(!new)>(before: Table<T>, after: Table<T>, u: UserId) {
    forall v :: v != u ==> RowsOf(after.rows, v) == RowsOf(before.rows, v)
  }

  /** The record a valid save stores: the request's fields, and its
      timestamp when truthy, else the server's time. */
  function Stored(req: SpotRequest, nowStamp: string): SpotData {
    SpotData(req.latitude, req.longitude, req.address, req.notes, req.imageUri,
             if Truthy(req.timestamp) then req.timestamp else Str(nowStamp))
  }

  /** GET: the caller's spot, or null. */
  function Lookup(spots: Table<SpotData>, u: UserId): (r: Response)
    ensures r.status == 200 && r.body.SpotJson?
    ensures r.body.spot.Some? <==> u in View(spots.rows)
    ensures r.body.spot.Some? ==>
      r.body.spot.value.owner == u && r.body.spot.value.data == View(spots.rows)[u]
  {
    ViewMatchesFind(spots.rows, u);
    Response(200, SpotJson(Find(spots.rows, u)))
  }

  /** POST: falsy latitude or longitude (0 included) is refused with 400;
      otherwise the caller's spots are replaced by one new row. */
  function Save(spots: Table<SpotData>, u: UserId, req: SpotRequest, nowStamp: string)
    : (r: (Table<SpotData>, Response))
    ensures !Truthy(req.latitude) || !Truthy(req.longitude) ==> r.0 == spots && r.1.status == 400
    ensures Truthy(req.latitude) && Truthy(req.longitude) ==>
      && r.1.status == 200
      && RowsOf(r.0.rows, u) == [Row(spots.nextId, u, Stored(req, nowStamp))]
      && r.1.body == SavedSpot(Row(spots.nextId, u, Stored(req, nowStamp)))
      && View(r.0.rows) == View(spots.rows)[u := Stored(req, nowStamp)]
    ensures OthersUnchanged(spots, r.0, u)
    ensures Valid(spots) ==> Valid(r.0)
  {
    if !Truthy(req.latitude) || !Truthy(req.longitude) then
      (spots, Response(400, ErrorText("Latitude and longitude are required")))
    else
      var data := Stored(req, nowStamp);
      ViewReplace(spots, u, data);
      var (spots', row) := Replace(spots, u, data);
      (spots', Response(200, SavedSpot(row)))
  }

  /** DELETE: the caller's spots are removed, nobody else's. */
  function Clear(spots: Table<SpotData>, u: UserId): (r: (Table<SpotData>, Response))
    ensures r.1.status == 200
    ensures RowsOf(r.0.rows, u) == []
    ensures View(r.0.rows) == View(spots.rows) - {u}
    ensures OthersUnchanged(spots, r.0, u)
    ensures Valid(spots) ==> Valid(r.0)
  {
    ViewRemove(spots, u);
    (Remove(spots, u), Response(200, Message("Parking spot cleared successfully!")))
  }
}

=== FILE: timer_controller.dfy ===
/** The countdown of the mobile client (mobile/App.js). The component keeps
    several state variables; `Controller` holds them, and `PhaseOf` reads
    them the way the timer panel is rendered: an active timer first, then
    the expired notice, otherwise the idle form. Time is integer
    milliseconds since the epoch, given to every transition as `now`; the
    one-second interval is the `Tick` transition, called by the environment.
    Calls the component makes to the server and to the notification
    platform are returned as effects. */
module TimerController {
  import opened Common

  type UserId = nat

  /** Which of the two interval callbacks is running: the one `startTimer`
      installs, which compares its owner with the `user` of the render that
      created it, or the one `loadTimerData` installs, which reads the
      signed-in user through a ref and stops when nobody is signed in. */
  datatype TickSource = StartedTick | ResumedTick

  /** The running one-second interval and the values its callback captured.
      `captured` and `notification` are the `user` and the `notificationId`
      of the render whose closure created the interval; the `clearTimerData`
      the callback calls at expiry reads both, does nothing when `captured`
      is None, and cancels `notification` rather than the current one. */
  datatype Ticker = Ticker(source: TickSource, owner: UserId, end: int, captured: Option<UserId>,
                           notification: Option<string>)

  datatype Controller = Controller(
    active: bool,                    // timerActive
    end: Option<int>,                // timerEnd
    remaining: Option<int>,          // remainingTime
    expired: bool,                   // timerExpired
    notificationId: Option<string>,  // notificationId
    ticker: Option<Ticker>,          // timerInterval.current
    starting: bool,                  // startTimer.isStarting
    saving: bool)                    // saveTimerData.isSaving

  const Initial: Controller := Controller(false, None, None, false, None, None, false, false)

  /** Requests to the timer-data endpoints and to the notification platform. */
  datatype Effect =
    | SaveTimerRow(end: int, hours: nat, minutes: nat, notificationId: string)
    | DeleteTimerRow
    | CancelNotification(id: string)

  datatype Phase = Idle | Active(end: int) | Expired

  /** The panel `renderTimer` shows. */
  function PhaseOf(c: Controller): Phase {
    if c.active && c.end.Some? then Active(c.end.value)
    else if c.expired then Expired
    else Idle
  }

  /** What the component keeps consistent: an active timer has an end time
      and shows a positive remaining time, an inactive one shows none or the
      zero an expiring interval leaves behind, and a running interval belongs
      to the active timer and counts down to its end. (An inactive timer may
      keep its end time: an expiry whose `clearTimerData` returns early
      leaves it set.) */
  ghost predicate Inv(c: Controller) {
    && (c.active ==> c.end.Some? && c.remaining.Some? && c.remaining.value > 0)
    && (!c.active ==> c.remaining.None? || c.remaining == Some(0))
    && (c.ticker.Some? ==> c.active && c.end == Some(c.ticker.value.end))
  }

  lemma InitialIsIdle()
    ensures Inv(Initial) && PhaseOf(Initial) == Idle
  {
  }

  /** Milliseconds in a timer of `hours` and `minutes`. */
  function Duration(hours: nat, minutes: nat): nat {
    hours * 3600000 + minutes * 60000
  }

  /** `clearTimerData(clearFromStorage)` as seen from one render, whose
      `user` and `notificationId` are `user` and `seen`: with a user, the
      timer is deactivated, its interval stopped, the notification that
      render knew of cancelled and forgotten (any other one is left
      scheduled and recorded) and, when asked, the server row deleted. The
      expired flag is left alone. */
  function ClearTimerData(c: Controller, user: Option<UserId>, seen: Option<string>, fromStorage: bool)
    : (r: (Controller, seq<Effect>))
    ensures user.None? ==> r == (c, [])
    ensures user.Some? ==>
      && !r.0.active && r.0.end.None? && r.0.remaining.None? && r.0.ticker.None?
      && r.0.expired == c.expired
      && r.0.starting == c.starting && r.0.saving == c.saving
      && (DeleteTimerRow in r.1 <==> fromStorage)
      && (seen.Some? ==> r.0.notificationId.None? && CancelNotification(seen.value) in r.1)
      && (seen.None? ==> r.0.notificationId == c.notificationId &&
                         forall e :: e in r.1 ==> !e.CancelNotification?)
    ensures Inv(c) ==> Inv(r.0)
  {
    if user.None? then (c, [])
    else
      var cancel := if seen.Some? then [CancelNotification(seen.value)] else [];
      var delete := if fromStorage then [DeleteTimerRow] else [];
      var notif := if seen.Some? then None else c.notificationId;
      (c.(active := false, end := None, remaining := None, notificationId := notif, ticker := None),
       cancel + delete)
  }

  /** `startTimer` followed by the delayed `scheduleNotification`,
      `saveTimerData` and interval start. `scheduled` is the identifier the
      platform returned, or None when scheduling failed. */
  function StartTimer(c: Controller, user: Option<UserId>, hours: nat, minutes: nat, now: int,
                      scheduled: Option<string>): (r: (Controller, seq<Effect>))
    ensures c.starting ==> r == (c, [])
    ensures !c.starting && ((hours == 0 && minutes == 0) || user.None?) ==>
      r == (c.(expired := false), [])
    ensures !c.starting && !(hours == 0 && minutes == 0) && user.Some? && scheduled.Some? ==>
      var end := now + hours * 3600000 + minutes * 60000;
      && end > now
      && PhaseOf(r.0) == Active(end)
      && r.0.remaining == Some(end - now)
      && r.0.ticker == Some(Ticker(StartedTick, user.value, end, user, c.notificationId))
      && !TickerStops(r.0.ticker.value, None)
      && r.0.notificationId == scheduled
      && r.0.starting
      && !r.0.expired
      && (!c.saving ==> SaveTimerRow(end, hours, minutes, scheduled.value) in r.1)
      && (c.saving ==> forall e :: e in r.1 ==> !e.SaveTimerRow?)
      && DeleteTimerRow !in r.1
    ensures !c.starting && !(hours == 0 && minutes == 0) && user.Some? && scheduled.None? ==>
      PhaseOf(r.0) == Idle && !r.0.starting && r.0.ticker.None?
    ensures Inv(c) ==> Inv(r.0)
  {
    if c.starting then (c, [])
    else if (hours == 0 && minutes == 0) || user.None? then (c.(expired := false), [])
    else
      var total := Duration(hours, minutes);
      var end := now + total;
      var cleared := c.(ticker := None, active := false, end := None, remaining := None,
                        expired := false);
      var cancelOld := if c.notificationId.Some? then [CancelNotification(c.notificationId.value)] else [];
      match scheduled
      case None => (cleared.(starting := false), cancelOld)
      case Some(id) =>
        var save := if c.saving then [] else [SaveTimerRow(end, hours, minutes, id)];
        (cleared.(end := Some(end), active := true, remaining := Some(total),
                  notificationId := Some(id),
                  ticker := Some(Ticker(StartedTick, user.value, end, user, c.notificationId)),
                  starting := true, saving := true),
         cancelOld + save)
  }

  /** The delayed reset of the start guard. */
  function ReleaseStartGuard(c: Controller): (r: Controller)
    ensures !r.starting && r.(starting := c.starting) == c
  {
    c.(starting := false)
  }

  /** The delayed reset of the save guard. */
  function ReleaseSaveGuard(c: Controller): (r: Controller)
    ensures !r.saving && r.(saving := c.saving) == c
  {
    c.(saving := false)
  }

  /** Whether the running interval stops itself instead of counting. The
      `startTimer` callback tests `!user || user.id !== timerUserId` with
      both values from the same render, so it never stops on a user switch;
      the `loadTimerData` callback stops once nobody is signed in. */
  predicate TickerStops(t: Ticker, signedIn: Option<UserId>) {
    match t.source
    case StartedTick => t.captured != Some(t.owner)
    case ResumedTick => signedIn.None?
  }

  /** One run of the interval callback at time `now`. At expiry the timer
      is deactivated and flagged expired; the row is deleted and the rest
      cleared only when the interval's render had a user, and the
      notification cancelled is the one that render knew of. */
  function Tick(c: Controller, signedIn: Option<UserId>, now: int): (r: (Controller, seq<Effect>))
    ensures c.ticker.None? ==> r == (c, [])
    ensures c.ticker.Some? && TickerStops(c.ticker.value, signedIn) ==>
      r == (c.(ticker := None), [])
    ensures Inv(c) && c.ticker.Some? && !TickerStops(c.ticker.value, signedIn) ==>
      var end := c.ticker.value.end;
      && (end - now <= 0 ==>
            PhaseOf(r.0) == Expired && r.0.ticker.None? && !r.0.active &&
            (c.ticker.value.captured.Some? ==> r.0.remaining.None? && DeleteTimerRow in r.1) &&
            (c.ticker.value.captured.Some? && c.ticker.value.notification.Some? ==>
               r.0.notificationId.None? &&
               CancelNotification(c.ticker.value.notification.value) in r.1) &&
            (c.ticker.value.captured.Some? && c.ticker.value.notification.None? ==>
               r.0.notificationId == c.notificationId &&
               forall e :: e in r.1 ==> !e.CancelNotification?) &&
            (c.ticker.value.captured.None? ==> r.0.remaining == Some(0) && r.1 == []))
      && (end - now > 0 ==>
            r == (c.(remaining := Some(end - now)), []) && PhaseOf(r.0) == Active(end))
    ensures Inv(c) ==> Inv(r.0)
  {
    match c.ticker
    case None => (c, [])
    case Some(t) =>
      if TickerStops(t, signedIn) then (c.(ticker := None), [])
      else
        var diff := t.end - now;
        if diff <= 0 then
          var finished := c.(ticker := None, active := false, expired := true, remaining := Some(0));
          ClearTimerData(finished, t.captured, t.notification, true)
        else (c.(remaining := Some(diff)), [])
  }

  /** `cancelTimer`: clear everything, server row included, and drop the
      expired notice. */
  function CancelTimer(c: Controller, user: Option<UserId>): (r: (Controller, seq<Effect>))
    ensures user.Some? ==>
      PhaseOf(r.0) == Idle && r.0.ticker.None? && DeleteTimerRow in r.1
    ensures user.None? ==> r == (c.(expired := false), [])
    ensures Inv(c) ==> Inv(r.0)
  {
    var (cleared, effects) := ClearTimerData(c, user, c.notificationId, true);
    (cleared.(expired := false), effects)
  }

  /** The Dismiss button of the expired notice. */
  function Dismiss(c: Controller): (r: Controller)
    ensures PhaseOf(c) == Expired ==> PhaseOf(r) == Idle
    ensures PhaseOf(c).Active? ==> PhaseOf(r) == PhaseOf(c)
    ensures Inv(c) ==> Inv(r)
  {
    c.(expired := false)
  }

  /** The timer part of `handleLogout`: the in-memory timer is reset
      completely, its notification cancelled, and the server row kept so the
      timer can resume on another device. */
  function Logout(c: Controller, user: Option<UserId>): (r: (Controller, seq<Effect>))
    ensures user.None? ==> r == (c, [])
    ensures user.Some? ==>
      && PhaseOf(r.0) == Idle && r.0.ticker.None? && r.0.notificationId.None?
      && r.0.remaining.None? && DeleteTimerRow !in r.1
    ensures user.Some? && c.notificationId.Some? ==>
      r.1 == [CancelNotification(c.notificationId.value)]
    ensures user.Some? && c.notificationId.None? ==> r.1 == []
    ensures Inv(c) ==> Inv(r.0)
  {
    if user.None? then (c, [])
    else
      var cancel := if c.notificationId.Some? then [CancelNotification(c.notificationId.value)] else [];
      (c.(ticker := None, active := false, end := None, remaining := None, expired := false,
          notificationId := None),
       cancel)
  }

  /** The timer row as the client reads it: `end` is None when
      `new Date(timer_end)` is not a valid date, `active` is the truthiness
      of `timer_active`, and `notificationId` is None when falsy. */
  datatype ServerTimer = ServerTimer(end: Option<int>, active: bool, notificationId: Option<string>)

  /** The outcome of `GET /api/timer-data`. */
  datatype Fetch = FetchFailed | Fetched(row: Option<ServerTimer>)

  /** Whether a fetched row names an active timer, the condition under
      which `loadTimerData` looks at the end time at all. */
  predicate ActiveRow(fetched: Fetch) {
    fetched.Fetched? && fetched.row.Some? && fetched.row.value.active
  }

  /** `loadTimerData`: reconcile the in-memory timer with the server row.
      `user` is the user it loads for (`userData || user`); `captured` is the
      `user` of the render that made the call and `seen` that render's
      `notificationId`; its `clearTimerData` and the interval it starts read
      both. The login handler calls it from the render before sign-in, where
      `captured` is None, and the foreground listener from the render that
      last set up its effect. An active row whose end is not a
      valid date makes `toISOString` throw, and the catch shows the form.
      Returns the new state, the effects and the function's boolean result. */
  function LoadTimerData(c: Controller, user: Option<UserId>, captured: Option<UserId>,
                         seen: Option<string>, fetched: Fetch, now: int)
    : (r: (Controller, seq<Effect>, bool))
    ensures user.None? ==> r == (c, [], false)
    ensures user.Some? && ActiveRow(fetched) && fetched.row.value.end.Some? &&
            fetched.row.value.end.value > now ==>
      var end := fetched.row.value.end.value;
      && r.2
      && PhaseOf(r.0) == Active(end)
      && r.0.remaining == Some(end - now) && end - now > 0
      && r.0.ticker == Some(Ticker(ResumedTick, user.value, end, captured, seen))
      && r.1 == []
    ensures user.Some? && ActiveRow(fetched) && fetched.row.value.end.Some? &&
            fetched.row.value.end.value <= now ==>
      && !r.2
      && (captured.Some? ==>
            PhaseOf(r.0) == Expired && r.0.remaining.None? && r.0.ticker.None? &&
            DeleteTimerRow in r.1)
      && (captured.Some? && seen.Some? ==>
            r.0.notificationId.None? && CancelNotification(seen.value) in r.1)
      && (captured.Some? && seen.None? ==>
            r.0.notificationId == c.notificationId &&
            forall e :: e in r.1 ==> !e.CancelNotification?)
      && (captured.None? ==> r.0 == c.(expired := true) && r.1 == [])
    ensures user.Some? && (!ActiveRow(fetched) || fetched.row.value.end.None?) ==>
      && !r.2
      && PhaseOf(r.0) == Idle && !r.0.expired && r.0.ticker.None?
      && r.0.remaining.None? && r.0.end.None?
      && r.1 == []
    ensures Inv(c) ==> Inv(r.0)
  {
    if user.None? then (c, [], false)
    else if ActiveRow(fetched) && fetched.row.value.end.Some? then
      var row := fetched.row.value;
      var end := row.end.value;
      if end > now then
        var notif := if row.notificationId.Some? then row.notificationId else c.notificationId;
        (c.(end := Some(end), active := true, remaining := Some(end - now), notificationId := notif,
            ticker := Some(Ticker(ResumedTick, user.value, end, captured, seen))),
         [], true)
      else
        var (cleared, effects) := ClearTimerData(c, captured, seen, true);
        (cleared.(expired := true), effects, false)
    else
      (c.(active := false, end := None, remaining := None, expired := false, ticker := None), [], false)
  }

  /** The notification-received listener. Its effect is set up again only
      when the user or the signed-in flag changes, so it reads `timerEnd` and
      `notificationId` as they were then: `seenEnd` and `seenNotification`.
      A notification not for the signed-in user (or with no user on either
      side) is only cancelled; for that user the listener also expires the
      timer once the end it saw has passed. */
  function OnNotification(c: Controller, notifUser: Option<UserId>, current: Option<UserId>,
                          seenEnd: Option<int>, seenNotification: Option<string>,
                          notifId: string, now: int): (r: (Controller, seq<Effect>))
    ensures notifUser.None? || current.None? || notifUser != current ==>
      r == (c, [CancelNotification(notifId)])
    ensures notifUser.Some? && notifUser == current && seenEnd.Some? && now >= seenEnd.value ==>
      && PhaseOf(r.0) == Expired && r.0.ticker.None?
      && DeleteTimerRow in r.1 && CancelNotification(notifId) in r.1
      && (seenNotification.Some? ==> CancelNotification(seenNotification.value) in r.1)
    ensures notifUser.Some? && notifUser == current && !(seenEnd.Some? && now >= seenEnd.value) ==>
      r == (c, [CancelNotification(notifId)])
    ensures Inv(c) ==> Inv(r.0)
  {
    if notifUser.None? || current.None? || notifUser != current then (c, [CancelNotification(notifId)])
    else if seenEnd.Some? && now >= seenEnd.value then
      var (cleared, effects) := ClearTimerData(c.(expired := true), current, seenNotification, true);
      (cleared, effects + [CancelNotification(notifId)])
    else (c, [CancelNotification(notifId)])
  }
}

=== FILE: transport.dfy ===
/** The mobile client's HTTP layer (mobile/App.js): the axios response
    interceptor that retries transient failures with exponential backoff and
    stages a failed parking-spot save in a single local slot, and the two
    routines that replay the staged save. Request payloads and response
    data are opaque type parameters; waiting is the returned delay. */
module Transport {
  import opened Common

  datatype Method = Get | Post | Delete

  /** The fields of an axios request config the interceptor reads. A zero
      `maxRetries` or `retryDelay` is an unset (falsy) one. */
  datatype RequestConfig<P> = RequestConfig(
    url: string,
    verb: Method,
    data: P,
    skipRetry: bool,
    retryCount: nat,
    maxRetries: nat,
    retryDelay: nat)

  /** A rejected request: its config (None when axios gave none), the error
      message, and the HTTP status when a response arrived. */
  datatype Failure<P> = Failure(config: Option<RequestConfig<P>>, message: string, status: Option<int>)

  /** `axios.defaults.maxRetries` and `axios.defaults.retryDelay`. */
  const DefaultMaxRetries: nat := 3
  const DefaultRetryDelay: nat := 2000

  /** `config.maxRetries || axios.defaults.maxRetries`. */
  function MaxRetries<P>(cfg: RequestConfig<P>): (n: nat)
    ensures cfg.maxRetries == 0 ==> n == DefaultMaxRetries
    ensures cfg.maxRetries != 0 ==> n == cfg.maxRetries
    ensures n > 0
  {
    if cfg.maxRetries == 0 then DefaultMaxRetries else cfg.maxRetries
  }

  /** `config.retryDelay || axios.defaults.retryDelay`. */
  function BaseDelay<P>(cfg: RequestConfig<P>): (n: nat)
    ensures cfg.retryDelay == 0 ==> n == DefaultRetryDelay
    ensures cfg.retryDelay != 0 ==> n == cfg.retryDelay
    ensures n > 0
  {
    if cfg.retryDelay == 0 then DefaultRetryDelay else cfg.retryDelay
  }

  function Pow2(n: nat): (r: nat)
    ensures r >= 1
  {
    if n == 0 then 1 else 2 * Pow2(n - 1)
  }

  /** A failure worth retrying: a network error, a timeout, an aborted
      connection, or a gateway / unavailable / rate-limit status. */
  predicate Transient(message: string, status: Option<int>) {
    || Contains(message, "Network Error")
    || Contains(message, "timeout")
    || Contains(message, "ECONNABORTED")
    || status == Some(502) || status == Some(503) || status == Some(504) || status == Some(429)
  }

  /** A request the interceptor is allowed to touch at all. */
  predicate Eligible<P>(f: Failure<P>) {
    f.config.Some? && f.config.value.url != "" && !f.config.value.skipRetry
  }

  predicate Retryable<P>(f: Failure<P>) {
    Eligible(f) && f.config.value.retryCount < MaxRetries(f.config.value) &&
    Transient(f.message, f.status)
  }

  predicate IsSpotSave<P>(cfg: RequestConfig<P>) {
    cfg.verb == Post && Contains(cfg.url, "/parking-spot")
  }

  /** What the interceptor does with a rejected request. `SignOut` removes
      the stored token and user and rejects. */
  datatype Decision<P> =
    | SignOut
    | GiveUp
    | Retry(next: RequestConfig<P>, delay: nat)
    | GiveUpAndStage(payload: P)

  /** The response interceptor's error handler. */
  function Intercept<P>(f: Failure<P>): (r: Decision<P>)
    ensures r == SignOut <==> f.status == Some(401)
    ensures r.Retry? <==> f.status != Some(401) && Retryable(f)
    ensures r.Retry? ==>
      && r.next == f.config.value.(retryCount := f.config.value.retryCount + 1)
      && r.delay == BaseDelay(f.config.value) * Pow2(r.next.retryCount - 1)
    ensures r.GiveUpAndStage? <==>
      f.status != Some(401) && Eligible(f) && !Retryable(f) && IsSpotSave(f.config.value)
    ensures r.GiveUpAndStage? ==> r.payload == f.config.value.data
  {
    if f.status == Some(401) then SignOut
    else if f.config.None? || f.config.value.url == "" then GiveUp
    else
      var cfg := f.config.value;
      if cfg.skipRetry then GiveUp
      else if cfg.retryCount < MaxRetries(cfg) && Transient(f.message, f.status) then
        Retry(cfg.(retryCount := cfg.retryCount + 1), BaseDelay(cfg) * Pow2(cfg.retryCount))
      else if IsSpotSave(cfg) then GiveUpAndStage(cfg.data)
      else GiveUp
  }

  /** The delays of the retries issued for a request that keeps failing
      with `failures` (message and status of each attempt, in order); the
      run stops at the first failure the interceptor does not retry. */
  function RetryDelays<P>(cfg: RequestConfig<P>, failures: seq<(string, Option<int>)>): seq<nat>
    decreases |failures|
  {
    if failures == [] then []
    else match Intercept(Failure(Some(cfg), failures[0].0, failures[0].1))
      case Retry(next, d) => [d] + RetryDelays(next, failures[1..])
      case _ => []
  }

  /** However often a request fails, it is retried at most up to its limit,
      and the retry that brings the count to n waits base * 2^(n-1). */
  lemma {:induction false} RetriesBounded<P>(cfg: RequestConfig<P>,
                                             failures: seq<(string, Option<int>)>)
    ensures |RetryDelays(cfg, failures)| <= if cfg.retryCount <= MaxRetries(cfg)
                                             then MaxRetries(cfg) - cfg.retryCount else 0
    ensures forall i :: 0 <= i < |RetryDelays(cfg, failures)| ==>
      RetryDelays(cfg, failures)[i] == BaseDelay(cfg) * Pow2(cfg.retryCount + i)
    decreases |failures|
  {
    if failures != [] {
      var d := Intercept(Failure(Some(cfg), failures[0].0, failures[0].1));
      if d.Retry? {
        RetriesBounded(d.next, failures[1..]);
        assert MaxRetries(d.next) == MaxRetries(cfg) && BaseDelay(d.next) == BaseDelay(cfg);
        var ds := RetryDelays(cfg, failures);
        assert ds == [d.delay] + RetryDelays(d.next, failures[1..]);
        forall i | 0 <= i < |ds|
          ensures ds[i] == BaseDelay(cfg) * Pow2(cfg.retryCount + i)
        {
          if i > 0 {
            assert ds[i] == RetryDelays(d.next, failures[1..])[i - 1];
          }
        }
      }
    }
  }

  /** A request whose every attempt fails transiently (without a 401) is
      retried exactly up to its limit. */
  lemma {:induction false} TransientRetriedToLimit<P>(cfg: RequestConfig<P>,
                                                      failures: seq<(string, Option<int>)>)
    requires cfg.url != "" && !cfg.skipRetry && cfg.retryCount <= MaxRetries(cfg)
    requires |failures| > MaxRetries(cfg) - cfg.retryCount
    requires forall i :: 0 <= i < |failures| ==>
      Transient(failures[i].0, failures[i].1) && failures[i].1 != Some(401)
    ensures |RetryDelays(cfg, failures)| == MaxRetries(cfg) - cfg.retryCount
    decreases |failures|
  {
    if cfg.retryCount < MaxRetries(cfg) {
      var d := Intercept(Failure(Some(cfg), failures[0].0, failures[0].1));
      assert d.Retry?;
      TransientRetriedToLimit(d.next, failures[1..]);
    }
  }

  /** The total wait of a fresh request retried k times is base * (2^k - 1). */
  lemma {:induction false} TotalBackoff(base: nat, k: nat)
    ensures Sum(seq(k, i requires 0 <= i => base * Pow2(i))) == base * (Pow2(k) - 1)
  {
    if k > 0 {
      var s := seq(k, i requires 0 <= i => base * Pow2(i));
      var s' := seq(k - 1, i requires 0 <= i => base * Pow2(i));
      assert s == s' + [base * Pow2(k - 1)];
      SumAppend(s', base * Pow2(k - 1));
      TotalBackoff(base, k - 1);
    }
  }

  /** The whole time a fresh request spends waiting between its attempts,
      however often it fails: base * (2^k - 1) for its k retries. */
  lemma RetryTotalWait<P>(cfg: RequestConfig<P>, failures: seq<(string, Option<int>)>)
    requires cfg.retryCount == 0
    ensures var ds := RetryDelays(cfg, failures);
      Sum(ds) == BaseDelay(cfg) * (Pow2(|ds|) - 1)
  {
    var ds := RetryDelays(cfg, failures);
    RetriesBounded(cfg, failures);
    var geometric := seq(|ds|, i requires 0 <= i => BaseDelay(cfg) * Pow2(i));
    assert ds == geometric;
    TotalBackoff(BaseDelay(cfg), |ds|);
  }

  function Sum(s: seq<nat>): nat {
    if s == [] then 0 else Sum(s[..|s| - 1]) + s[|s| - 1]
  }

  lemma SumAppend(s: seq<nat>, x: nat)
    ensures Sum(s + [x]) == Sum(s) + x
  {
    assert (s + [x])[..|s + [x]| - 1] == s;
  }

  // ---------------------------------------------------------------------
  // The staging slot `offlineParkingSpot`

  /** The slot after the interceptor's decision: a staged payload replaces
      whatever the slot held; any other decision leaves it alone. */
  function Stage<P>(slot: Option<P>, d: Decision<P>): (r: Option<P>)
    ensures d.GiveUpAndStage? ==> r == Some(d.payload)
    ensures !d.GiveUpAndStage? ==> r == slot
  {
    if d.GiveUpAndStage? then Some(d.payload) else slot
  }

  /** What a failed request does to the slot: it receives the request's own
      payload exactly when the failure is not a 401, the request has a URL and
      does not skip retries, it is not retried, and it is a POST to a
      parking-spot URL; every other failure leaves the slot as it was. */
  lemma StageAfterFailure<P>(slot: Option<P>, f: Failure<P>)
    ensures f.status != Some(401) && Eligible(f) && !Retryable(f) && IsSpotSave(f.config.value) ==>
      Stage(slot, Intercept(f)) == Some(f.config.value.data)
    ensures !(f.status != Some(401) && Eligible(f) && !Retryable(f) && IsSpotSave(f.config.value)) ==>
      Stage(slot, Intercept(f)) == slot
  {
  }

  /** The outcome of the replaying POST: a response with its data (None when
      the data is falsy), or a rejection. */
  datatype Outcome<R> = Answered(data: Option<R>) | Rejected

  /** The slot afterwards, the payload that was posted, and the spot data
      the screen now shows. */
  datatype SyncResult<P, R> = SyncResult(slot: Option<P>, posted: Option<P>, shown: Option<R>)

  /** The replay both routines share once their checks pass: the slot is
      cleared only when the server answered with data. */
  function Replay<P, R>(payload: P, post: Outcome<R>): (r: SyncResult<P, R>)
    ensures r.posted == Some(payload)
    ensures r.slot.None? <==> post.Answered? && post.data.Some?
    ensures r.slot.Some? ==> r.slot == Some(payload) && r.shown.None?
    ensures r.slot.None? ==> r.shown == post.data
  {
    match post
    case Answered(Some(d)) => SyncResult(None, Some(payload), Some(d))
    case _ => SyncResult(Some(payload), Some(payload), None)
  }

  /** `checkServerStatus` as written: the probe's reply (None when the probe
      request failed) must carry status `ok`; only after a failed probe is the
      wake-up request's reply consulted. A reply with another status makes
      the function return undefined, which callers read as false. */
  function ServerAwakeAsWritten(probe: Option<string>, wakeup: Option<string>): (r: bool)
    ensures probe == Some("OK") ==> !r
    ensures probe.None? && wakeup == Some("OK") ==> !r
  {
    match probe
    case Some(status) => status == "ok"
    case None => wakeup == Some("ok")
  }

  /** The health status the servers send, in either spelling. */
  predicate Healthy(status: string) {
    status == "ok" || status == "OK"
  }

  /** `checkServerStatus` accepting the servers' `OK`. */
  function ServerAwake(probe: Option<string>, wakeup: Option<string>): (r: bool)
    ensures probe.Some? ==> (r <==> Healthy(probe.value))
    ensures probe.None? ==> (r <==> wakeup.Some? && Healthy(wakeup.value))
    ensures ServerAwakeAsWritten(probe, wakeup) ==> r
  {
    match probe
    case Some(status) => Healthy(status)
    case None => wakeup.Some? && Healthy(wakeup.value)
  }

  /** `checkAndSyncOfflineData`, given whether the network is reachable and
      what the server check answered: nothing happens without a staged
      payload, a network or an awake server; otherwise the payload is posted
      and the slot cleared only on a response with data. */
  function AutoSync<P, R>(slot: Option<P>, online: bool, awake: bool, post: Outcome<R>)
    : (r: SyncResult<P, R>)
    ensures slot.None? || !online || !awake ==> r == SyncResult(slot, None, None)
    ensures slot.Some? && online && awake ==> r.posted == slot
    ensures r.slot.None? <==>
      slot.None? || (online && awake && post.Answered? && post.data.Some?)
    ensures r.slot.Some? ==> r.slot == slot
  {
    if slot.None? || !online || !awake then SyncResult(slot, None, None)
    else Replay(slot.value, post)
  }

  /** The request config of the automatic replay: retried up to three times. */
  function AutoSyncRequest<P>(url: string, payload: P): RequestConfig<P> {
    RequestConfig(url, Post, payload, false, 0, 3, 0)
  }

  /** The request config of the manual replay: never retried. */
  function ManualSyncRequest<P>(url: string, payload: P): RequestConfig<P> {
    RequestConfig(url, Post, payload, true, 0, 0, 0)
  }

  /** `manualSync` as written: past the slot and network checks it evaluates
      `API_URL === PROD_API_URL`, and `PROD_API_URL` is declared nowhere in
      the file, so the ReferenceError lands in the catch block: the sync
      fails, nothing is posted and the slot is kept, whatever the replay
      would have answered. */
  function ManualSyncAsWritten<P, R>(slot: Option<P>, online: bool, post: Outcome<R>)
    : (r: SyncResult<P, R>)
    ensures r.slot == slot && r.posted.None? && r.shown.None?
  {
    SyncResult(slot, None, None)
  }

  /** `manualSync` with the production check evaluated: in production the
      server check must pass; the POST skips the retry interceptor; the slot
      is cleared only on a response with data. */
  function ManualSync<P, R>(slot: Option<P>, online: bool, production: bool, awake: bool,
                            post: Outcome<R>): (r: SyncResult<P, R>)
    ensures slot.None? || !online || (production && !awake) ==> r == SyncResult(slot, None, None)
    ensures slot.Some? && online && (!production || awake) ==> r.posted == slot
    ensures r.slot.None? <==>
      slot.None? || (online && (!production || awake) && post.Answered? && post.data.Some?)
    ensures r.slot.Some? ==> r.slot == slot
  {
    if slot.None? || !online || (production && !awake) then SyncResult(slot, None, None)
    else Replay(slot.value, post)
  }

  /** A manual replay that fails is neither retried nor re-staged. */
  lemma ManualSyncFailureNotRestaged<P>(url: string, payload: P, message: string,
                                        status: Option<int>)
    ensures var d := Intercept(Failure(Some(ManualSyncRequest(url, payload)), message, status));
      !d.Retry? && !d.GiveUpAndStage?
  {
  }

  /** An automatic replay that keeps failing is retried three times, after
      2, 4 and 8 seconds. */
  lemma AutoSyncBackoff<P>(url: string, payload: P, failures: seq<(string, Option<int>)>)
    requires url != ""
    requires |failures| > 3
    requires forall i :: 0 <= i < |failures| ==>
      Transient(failures[i].0, failures[i].1) && failures[i].1 != Some(401)
    ensures RetryDelays(AutoSyncRequest(url, payload), failures) == [2000, 4000, 8000]
  {
    var cfg := AutoSyncRequest(url, payload);
    TransientRetriedToLimit(cfg, failures);
    RetriesBounded(cfg, failures);
    var ds := RetryDelays(cfg, failures);
    assert ds[0] == 2000 * Pow2(0);
    assert ds[1] == 2000 * Pow2(1);
    assert ds[2] == 2000 * Pow2(2);
  }
}
